=== FILE: README.md ===
# APoS provisioning script, modelled in Dafny

`setup-APoS-EWC.py` configures a Cisco access point that runs an embedded
wireless controller (EWC) for an "AP-on-a-Stick" site survey. It opens a
serial console and types a fixed sequence of IOS-XE commands into it. The
sequence is built from a JSON configuration: the AP's MAC, name and address,
the controller's name, address and credentials, the WLANs to create, and the
radio settings.

With the serial port, the sleeps and the printing taken out, that sequence is
a total function of the configuration. This project models it as
`Provisioning.Script(c): seq<Cmd>`. A `Cmd` is a command text with a settle
time in milliseconds: 500 by default, 1000 and 3000 where the script passes
`wait_time`. The script concatenates seven sections:

- the preamble: wake lines, `enable`, the rename from the factory name,
  console logging, `netconf-yang`, hostname, controller address, admin user,
  AP profile;
- one WLAN block per WLAN, with ids 1, 2, ...;
- one 8-command wireless policy block per WLAN;
- the default policy tag;
- password encryption, ending in `end`;
- the radio tuning pair chosen by `fra_ap`, then the 5 GHz pair, which is
  always addressed to `Survey-AP`;
- the AP's static address and `write memory`.

Modules:

- `Console`: `send_to_console`'s framing. Each command is written as its text
  plus a carriage return. `Deframe` is what a line-oriented console makes of
  the written stream. `Transmit` is the driver loop.
- `Decimal`: Python's decimal rendering of integers, and reading it back.
- `Options`: the optional value returned when something is read back.
- `Config`: the configuration. Fields the script compares with string
  literals (`fra_ap`, `band`) are JSON scalars (`Text`, `Int` or `Bool`),
  because the string "true" and the JSON value `true` behave differently.
  So are the channels and tx-powers, whose f-string rendering depends on the
  JSON type. Names, the SSID, the PSK, addresses and credentials also go
  through f-strings. They stay `string` because any JSON scalar in those
  places prints as text that a string can hold. The MAC is measured and
  sliced rather than printed, so it is a `string` too, and the script fails
  when it is not one (see "## Left out").
- `ApName`: the factory name `"AP"` + MAC groups of four joined by `.`, and
  reading it back.
- `Blocks`: numbered and unnumbered per-element blocks, a property holding
  for every command of a list, and slicing facts about concatenations.
- `Provisioning`: the sections and `Script`.
- `ScriptProperties`: where each section and block sits in the script, what
  it contains, which settle times differ from the default, and how the
  script ends.
- `TuningSlot`: the text of a radio tuning command appears only in its slot,
  for AP names and MACs without spaces. Commands are compared by text, not by
  settle time, because the console sees only the text.
- `Scenario`: a worked example. It has a controller named EWC1 at 10.0.0.5,
  one 5 GHz WLAN "Survey", and `fra_ap` either "true" or JSON `true`.

Behaviour of the code worth knowing:

- `fra_ap` is compared with the string `"true"`, so a JSON boolean `true`
  selects the 2.4 GHz pair (`Scenario.JsonBooleanSelects24Ghz`).
- A MAC whose length is not a multiple of 4 is not rejected. It yields a
  short last group (`ApName.ShortGroupExample`).
- An empty WLAN list is not rejected. It yields a 27-command script
  (`ScriptProperties.ScriptLength`).
- A WLAN's band selects a radio only when it is exactly `"5"` or `"2.4"`.
- An AP name with spaces is not rejected. With one, a 5 GHz command can read
  exactly like a 2.4 GHz tuning command (`TuningSlot.SpacedNameCollision`).

## Model

All source cells refer to `Setup-APoS-EWC/setup-APoS-EWC.py`.

| member | source | states |
|---|---|---|
| Console.Unframe | Setup-APoS-EWC/setup-APoS-EWC.py:34 | A line is a framed command exactly when it ends in a carriage return, and then it is the text followed by that one carriage return |
| Console.WireFraming | Setup-APoS-EWC/setup-APoS-EWC.py:34-35 | Every command is written as its text followed by exactly one added carriage return, and unframing the written line gives the text back |
| Console.DeframeLine | Setup-APoS-EWC/setup-APoS-EWC.py:34-35 | A carriage-return-free text, once framed, reaches the console as exactly one whole line |
| Console.DeframeWireStream | Setup-APoS-EWC/setup-APoS-EWC.py:34-35 | When no command text holds a carriage return, the console receives the command texts one line each, in order and nothing else |
| Console.DeframeTrailingCr | Setup-APoS-EWC/setup-APoS-EWC.py:34-35 | A text that already ends in a carriage return reaches the console as its line followed by an extra empty line |
| Console.Transmit | Setup-APoS-EWC/setup-APoS-EWC.py:18-37 | The driver loop writes the framed commands in order and waits out the sum of their settle times; without carriage returns in the texts, the console receives exactly the texts |
| Decimal.FromNat | Setup-APoS-EWC/setup-APoS-EWC.py:107 | The WLAN counter is printed as at least one decimal digit, with a leading zero only for 0 |
| Decimal.RoundTrip | Setup-APoS-EWC/setup-APoS-EWC.py:107 | Reading back the printed number gives the number |
| Decimal.FromNatInjective | Setup-APoS-EWC/setup-APoS-EWC.py:107 | Different WLAN ids are printed differently |
| Config.Render | Setup-APoS-EWC/setup-APoS-EWC.py:152-161 | An f-string prints a text value as it is and a boolean as `True` or `False`. A non-negative integer prints as digits that read back to it, with a leading `0` only for 0 itself. A negative integer prints as `-` followed by the digits of its magnitude, which do not start with `0` |
| ApName.GroupsSlices | Setup-APoS-EWC/setup-APoS-EWC.py:71 | The MAC is cut into ceil(len/4) groups, and group j is `mac[4j : 4j+4]` clipped to the end |
| ApName.GroupShape | Setup-APoS-EWC/setup-APoS-EWC.py:71 | Every group but the last has 4 characters; the last has 1 to 4, and 4 exactly when the MAC length is a multiple of 4 |
| ApName.AllGroupsFull | Setup-APoS-EWC/setup-APoS-EWC.py:71 | All groups have 4 characters if and only if the MAC length is a multiple of 4 |
| ApName.ConcatGroups | Setup-APoS-EWC/setup-APoS-EWC.py:71 | Gluing the groups back together gives the MAC |
| ApName.DefaultNameRoundTrip | Setup-APoS-EWC/setup-APoS-EWC.py:70-72 | For any dot-free MAC of any length, dropping "AP" and the dots from the factory name gives back the MAC |
| ApName.DefaultNameExample | Setup-APoS-EWC/setup-APoS-EWC.py:70-72 | `AABBCCDDEEFF` gives the factory name `APAABB.CCDD.EEFF` |
| ApName.ShortGroupExample | Setup-APoS-EWC/setup-APoS-EWC.py:71-72 | A 5-character MAC is accepted and gives a one-character last group: `AABBC` gives `APAABB.C` |
| ApName.DefaultNameAvoids | Setup-APoS-EWC/setup-APoS-EWC.py:70-72 | A character that is not in the MAC, not a dot and not in "AP" (a space, say) is not in the factory name |
| Blocks.NumberedSplit | Setup-APoS-EWC/setup-APoS-EWC.py:105-117 | The numbered WLAN blocks are the blocks before element k, then element k's block numbered first + k, then the rest; no block is split or interleaved |
| Blocks.EachSplit | Setup-APoS-EWC/setup-APoS-EWC.py:120-128 | The per-element blocks of a loop are the blocks before element k, then element k's block, then the rest |
| Blocks.EachLength | Setup-APoS-EWC/setup-APoS-EWC.py:120-128 | A loop emitting a fixed number L of commands per element emits L times the number of elements |
| Provisioning.Preamble | Setup-APoS-EWC/setup-APoS-EWC.py:63-102 | The preamble has 15 commands; `PreamblePlaced` states each of them and `PreambleWaits` their waits |
| Provisioning.RadioLine | Setup-APoS-EWC/setup-APoS-EWC.py:108-111 | A WLAN block has at most one radio line, and has one exactly when the band is the string "5" or "2.4" |
| Provisioning.WlanBlock | Setup-APoS-EWC/setup-APoS-EWC.py:107-116 | A WLAN block has 6 or 7 commands, 7 exactly for a known band. It starts with `wlan <name> <id> "<ssid>"`, then turns off dot1x key management, sets this WLAN's own PSK, turns on PSK key management, enables the WLAN with `no shutdown`, and ends with `exit` |
| Provisioning.PolicyBlock | Setup-APoS-EWC/setup-APoS-EWC.py:121-128 | A policy block has 8 commands. It starts with `wireless profile policy <name>`; then come the three `no central` commands (association, dhcp, switching), `http-tlv-caching`, `session-timeout 86400` and `no shutdown`; it ends with `exit` |
| Provisioning.EncryptionSection | Setup-APoS-EWC/setup-APoS-EWC.py:137-140 | The encryption section has 4 commands; `EncryptionPlaced` states each of them |
| Provisioning.TuningPair | Setup-APoS-EWC/setup-APoS-EWC.py:151-158 | Whichever way `fra_ap` goes, the tuning sends two commands |
| Provisioning.RadioSection | Setup-APoS-EWC/setup-APoS-EWC.py:151-162 | The radio section has 4 commands |
| Provisioning.TailSection | Setup-APoS-EWC/setup-APoS-EWC.py:165-169 | The tail has 2 commands |
| ScriptProperties.WlanSectionLength | Setup-APoS-EWC/setup-APoS-EWC.py:105-117 | The WLAN loop sends 6 commands per WLAN plus one per WLAN whose band is "5" or "2.4" |
| ScriptProperties.PolicySectionLength | Setup-APoS-EWC/setup-APoS-EWC.py:120-128 | The policy loop sends 8 commands per WLAN |
| ScriptProperties.TagSectionLength | Setup-APoS-EWC/setup-APoS-EWC.py:131-134 | The tag section sends one binding per WLAN plus its header and `exit` |
| ScriptProperties.ScriptLength | Setup-APoS-EWC/setup-APoS-EWC.py:62-169 | The script has 27 + 15n + (WLANs with a known band) commands for n WLANs, so between 27 + 15n and 27 + 16n; the radio and tail sections close it |
| ScriptProperties.PreambleAt | Setup-APoS-EWC/setup-APoS-EWC.py:63-102 | The script's first 15 commands are the preamble, and more follow |
| ScriptProperties.WlanSectionAt | Setup-APoS-EWC/setup-APoS-EWC.py:104-117 | The WLAN blocks come right after the preamble |
| ScriptProperties.PolicySectionAt | Setup-APoS-EWC/setup-APoS-EWC.py:119-128 | The policy blocks come right after the WLAN blocks |
| ScriptProperties.TagSectionAt | Setup-APoS-EWC/setup-APoS-EWC.py:130-134 | The policy tag comes right after the policy blocks |
| ScriptProperties.EncryptionSectionAt | Setup-APoS-EWC/setup-APoS-EWC.py:136-140 | The encryption commands come right after the policy tag |
| ScriptProperties.RadioSectionAt | Setup-APoS-EWC/setup-APoS-EWC.py:150-162 | The radio commands come right after the encryption commands, and only the two tail commands follow them |
| ScriptProperties.TailSectionAt | Setup-APoS-EWC/setup-APoS-EWC.py:164-169 | The script's last two commands are the tail |
| ScriptProperties.MiddleAt | Setup-APoS-EWC/setup-APoS-EWC.py:104-162 | Between the preamble and the tail lie exactly the WLAN, policy, tag, encryption and radio sections |
| ScriptProperties.WlanBlockInSection | Setup-APoS-EWC/setup-APoS-EWC.py:105-117 | In the WLAN section, WLAN k's block follows the blocks of the WLANs before it, and adding it gives the section of the first k+1 WLANs |
| ScriptProperties.WlanBlockStarts | Setup-APoS-EWC/setup-APoS-EWC.py:105-117 | WLAN k+1's block starts right where WLAN k's block ends, and every block ends before the policy blocks |
| ScriptProperties.WlanBlockPlaced | Setup-APoS-EWC/setup-APoS-EWC.py:105-117 | In any command list holding the WLAN section after the preamble, WLAN k's whole block sits at its start, opening with `wlan <name> k+1 "<ssid>"` |
| ScriptProperties.WlanBlockInScript | Setup-APoS-EWC/setup-APoS-EWC.py:105-117 | The k-th WLAN in input order occupies one contiguous block of the script, numbered k+1 |
| ScriptProperties.WlanPskInScript | Setup-APoS-EWC/setup-APoS-EWC.py:105-117 | In the script, the k-th WLAN's block sets the k-th WLAN's own PSK, four commands before that block's `exit` |
| ScriptProperties.WlanIdRoundTrip | Setup-APoS-EWC/setup-APoS-EWC.py:107 | The id in a `wlan` command reads back as the id it was given |
| ScriptProperties.WlanIds | Setup-APoS-EWC/setup-APoS-EWC.py:105-117 | Whatever the WLANs contain, the k-th one (0-based) is created by `wlan <name> k+1 "<ssid>"`, and k+1 reads back from that command |
| ScriptProperties.BandLine | Setup-APoS-EWC/setup-APoS-EWC.py:107-116 | Band "5" puts `radio dot11a` right after the `wlan` command and "2.4" puts `radio dot11g`; a block holds a radio line exactly at position 1 and only for those bands |
| ScriptProperties.PolicyBlockInSection | Setup-APoS-EWC/setup-APoS-EWC.py:120-128 | In the policy section, WLAN k's 8-command block starts at 8k |
| ScriptProperties.PolicyBlockPlaced | Setup-APoS-EWC/setup-APoS-EWC.py:120-128 | In any command list holding the policy section at its place, WLAN k's whole policy block sits 8k commands into it |
| ScriptProperties.PolicyBlockInScript | Setup-APoS-EWC/setup-APoS-EWC.py:120-128 | Each WLAN gets exactly one whole policy block in the script, in input order, 8 commands apart |
| ScriptProperties.BindingsAt | Setup-APoS-EWC/setup-APoS-EWC.py:132-133 | The binding loop sends one `wlan <n> policy <n>` per WLAN, the k-th for WLAN k |
| ScriptProperties.TagSectionShape | Setup-APoS-EWC/setup-APoS-EWC.py:131-134 | The tag section is the header, one binding per WLAN in input order, then `exit` |
| ScriptProperties.TagSectionPlaced | Setup-APoS-EWC/setup-APoS-EWC.py:131-134 | In any command list holding the tag section at its place, the header, the bindings and `exit` sit at consecutive positions ending right before the encryption commands |
| ScriptProperties.TagSectionInScript | Setup-APoS-EWC/setup-APoS-EWC.py:130-134 | After the policy blocks the script enters the default policy tag, binds every WLAN to its own policy in input order, and exits |
| ScriptProperties.EncryptionPlaced | Setup-APoS-EWC/setup-APoS-EWC.py:137-140 | In any command list holding the encryption section at its place, its four commands are `service password-encryption`, `password encryption aes`, `key config-key newpass <controller password>` and `end`, in that order |
| ScriptProperties.EncryptionInScript | Setup-APoS-EWC/setup-APoS-EWC.py:137-140 | Right after the policy tag the script turns on password encryption with AES, sets the key from the controller password and leaves configuration mode with `end`, right before the radio commands |
| ScriptProperties.RadioTextsDiffer | Setup-APoS-EWC/setup-APoS-EWC.py:152-156 | Two radio commands for the same AP whose radio names start differently are different commands |
| ScriptProperties.RadioPairsDiffer | Setup-APoS-EWC/setup-APoS-EWC.py:151-156 | The dual-band commands never coincide with the 2.4 GHz commands, whatever the settings |
| ScriptProperties.RadioSectionShape | Setup-APoS-EWC/setup-APoS-EWC.py:151-162 | The radio section is the tuning pair followed by the 5 GHz pair |
| ScriptProperties.TuningExclusive | Setup-APoS-EWC/setup-APoS-EWC.py:151-156 | The tuning pair is the dual-band pair if and only if `fra_ap` is the string "true", and the 2.4 GHz pair if and only if it is not |
| ScriptProperties.RadioPlaced | Setup-APoS-EWC/setup-APoS-EWC.py:150-162 | In any command list holding the radio section at its place, the tuning pair comes first and the 5 GHz pair second |
| ScriptProperties.RadioSelection | Setup-APoS-EWC/setup-APoS-EWC.py:151-158 | The tuning pair sits six commands from the end; it is the dual-band pair when `fra_ap` is "true" and the 2.4 GHz pair otherwise |
| ScriptProperties.FiveGhzInScript | Setup-APoS-EWC/setup-APoS-EWC.py:159-162 | The two 5 GHz commands follow the tuning pair, whichever pair was chosen |
| ScriptProperties.RadioExclusive | Setup-APoS-EWC/setup-APoS-EWC.py:151-158 | The script's tuning slot holds the dual-band pair if and only if `fra_ap` is "true", and the 2.4 GHz pair if and only if it is not |
| ScriptProperties.FiveGhzIgnoresApName | Setup-APoS-EWC/setup-APoS-EWC.py:159-162 | The 5 GHz commands address `Survey-AP` and do not change when the configured AP name changes |
| TuningSlot.TuningAddressed | Setup-APoS-EWC/setup-APoS-EWC.py:152-156 | Every dual-band and 2.4 GHz tuning command starts with `ap name ` |
| TuningSlot.RadioTextsApart | Setup-APoS-EWC/setup-APoS-EWC.py:152-161 | Radio commands for single-word AP names differ when their radio names start differently, even for different AP names |
| TuningSlot.RenameNotRadio | Setup-APoS-EWC/setup-APoS-EWC.py:73-74 | For single-word AP names and MACs, the rename command is no radio command for the same AP |
| TuningSlot.PreambleUnaddressed | Setup-APoS-EWC/setup-APoS-EWC.py:63-102 | No preamble command other than the rename starts with `ap name ` |
| TuningSlot.PreambleNotTuning | Setup-APoS-EWC/setup-APoS-EWC.py:63-102 | For single-word AP names and MACs, no preamble command is a tuning command |
| TuningSlot.WlanBlockUnaddressed | Setup-APoS-EWC/setup-APoS-EWC.py:107-116 | No WLAN block command starts with `ap name ` |
| TuningSlot.PolicyBlockUnaddressed | Setup-APoS-EWC/setup-APoS-EWC.py:121-128 | No policy block command starts with `ap name ` |
| TuningSlot.TagSectionUnaddressed | Setup-APoS-EWC/setup-APoS-EWC.py:131-134 | No policy tag command starts with `ap name ` |
| TuningSlot.EncryptionUnaddressed | Setup-APoS-EWC/setup-APoS-EWC.py:137-140 | No encryption command starts with `ap name ` |
| TuningSlot.BodyUnaddressed | Setup-APoS-EWC/setup-APoS-EWC.py:104-140 | No command between the preamble and the radio commands starts with `ap name ` |
| TuningSlot.FiveGhzNotTuning | Setup-APoS-EWC/setup-APoS-EWC.py:159-162 | For a single-word AP name, neither 5 GHz command is a dual-band or 2.4 GHz tuning command |
| TuningSlot.StaticIpNotRadio | Setup-APoS-EWC/setup-APoS-EWC.py:165-166 | For any AP name, the static-ip text differs from every radio text for the same AP |
| TuningSlot.TailNotTuning | Setup-APoS-EWC/setup-APoS-EWC.py:165-169 | Neither the static-ip text nor `write memory` is the text of a tuning command |
| TuningSlot.OutsideSlotPlaced | Setup-APoS-EWC/setup-APoS-EWC.py:62-169 | In any command list laid out as the script is, only the two commands after the encryption section can be tuning commands |
| TuningSlot.TuningOnlyInSlot | Setup-APoS-EWC/setup-APoS-EWC.py:62-169 | For single-word AP names and MACs, no command of the script outside the tuning slot has the text of a dual-band or 2.4 GHz tuning command |
| TuningSlot.PairsDisjoint | Setup-APoS-EWC/setup-APoS-EWC.py:151-156 | No dual-band command text is a 2.4 GHz command text, in either position |
| TuningSlot.RadioOmitted | Setup-APoS-EWC/setup-APoS-EWC.py:151-158 | For single-word AP names and MACs, a text of the selected pair is sent exactly in the tuning slot, and no text of the other pair is sent anywhere in the script |
| TuningSlot.CollidingTexts | Setup-APoS-EWC/setup-APoS-EWC.py:152-159 | For the AP name "Survey-AP dot11 5ghz channel Y", the 5 GHz channel command for channel "Y dot11 24ghz channel V" is the 2.4 GHz channel command for channel "V" |
| TuningSlot.SpacedNameCollision | Setup-APoS-EWC/setup-APoS-EWC.py:151-162 | With that AP name and those channels, and `fra_ap` "true", the script sends the dual-band pair and then the 2.4 GHz channel command |
| ScriptProperties.TailPlaced | Setup-APoS-EWC/setup-APoS-EWC.py:165-169 | In any command list ending with the tail, the last command is `write memory` and the one before it is the static-ip command with its own carriage return and a 1 s wait |
| ScriptProperties.ScriptTail | Setup-APoS-EWC/setup-APoS-EWC.py:164-169 | The script ends with the AP's static-ip command (1 s wait) followed by `write memory` |
| ScriptProperties.StaticIpWire | Setup-APoS-EWC/setup-APoS-EWC.py:165-166 | The static-ip command's wire text ends in two carriage returns, so the console receives the line and then an empty line |
| ScriptProperties.PreambleWaits | Setup-APoS-EWC/setup-APoS-EWC.py:63-102 | In the preamble, exactly the second wake line (1 s), `ip address` (3 s), `username` (1 s) and `mgmtuser` (1 s) differ from the 0.5 s default |
| ScriptProperties.WlanSectionPaced | Setup-APoS-EWC/setup-APoS-EWC.py:105-117 | Every WLAN command uses the default wait |
| ScriptProperties.PolicySectionPaced | Setup-APoS-EWC/setup-APoS-EWC.py:120-128 | Every policy command uses the default wait |
| ScriptProperties.TagSectionPaced | Setup-APoS-EWC/setup-APoS-EWC.py:131-134 | Every policy-tag command uses the default wait |
| ScriptProperties.EncryptionPaced | Setup-APoS-EWC/setup-APoS-EWC.py:137-140 | Every encryption command uses the default wait |
| ScriptProperties.RadioPaced | Setup-APoS-EWC/setup-APoS-EWC.py:151-162 | Every radio command uses the default wait |
| ScriptProperties.MiddlePaced | Setup-APoS-EWC/setup-APoS-EWC.py:104-162 | Every command between the preamble and the static-ip command uses the default wait |
| ScriptProperties.WaitsPlaced | Setup-APoS-EWC/setup-APoS-EWC.py:63-169 | In any command list made of the preamble, the middle sections and the tail, exactly five commands differ from the default wait: positions 1, 11, 12, 14 and the static-ip command |
| ScriptProperties.Waits | Setup-APoS-EWC/setup-APoS-EWC.py:63-169 | Exactly five commands of the script override the 0.5 s default: the second wake line (1 s), `ip address` (3 s), `username` (1 s), `mgmtuser` (1 s) and `static-ip` (1 s) |
| ScriptProperties.PreambleShape | Setup-APoS-EWC/setup-APoS-EWC.py:63-89 | The preamble sends `enable`, then the rename from the MAC-derived factory name (which reads back to the MAC when the MAC has no dots), then `conf t`, and later `hostname <ewc name>` |
| ScriptProperties.PreamblePlaced | Setup-APoS-EWC/setup-APoS-EWC.py:63-102 | In any command list starting with the preamble, positions 0 to 14 hold the 15 preamble commands with their texts and waits, from the two wake lines to `mgmtuser` |
| ScriptProperties.PreambleInScript | Setup-APoS-EWC/setup-APoS-EWC.py:63-102 | The script opens with the wake lines (the second with 1 s), `enable`, the rename, `conf t`, `line console 0`, `logging sync`, `exit`, `netconf-yang`, the hostname, `interface gigabitEthernet 0`, the controller address (3 s), the admin user (1 s), `ap profile default-ap-profile` and its management user (1 s) |
| Scenario.ExampleRenameText | Setup-APoS-EWC/setup-APoS-EWC.py:70-74 | The AP with MAC `AABBCCDDEEFF` named `APoS-1` is renamed by `ap name APAABB.CCDD.EEFF name APoS-1` |
| Scenario.ExampleLength | Setup-APoS-EWC/setup-APoS-EWC.py:62-169 | One 5 GHz WLAN gives a 43-command script whose radio commands start at position 37 |
| Scenario.ExampleOpening | Setup-APoS-EWC/setup-APoS-EWC.py:63-93 | The example script renames the AP, sets `hostname EWC1`, and sets `ip address 10.0.0.5 255.255.255.0` with a 3 s wait |
| Scenario.ExampleWlan | Setup-APoS-EWC/setup-APoS-EWC.py:105-117 | The example's WLAN is created as `wlan Survey 1 "SurveyNet"` and followed by `radio dot11a` |
| Scenario.ExampleRadioAndEnd | Setup-APoS-EWC/setup-APoS-EWC.py:151-169 | With `fra_ap` "true" the example sends the dual-band pair at positions 37-38, no 2.4 GHz tuning text anywhere in the script, and ends with `write memory` |
| Scenario.JsonBooleanSelects24Ghz | Setup-APoS-EWC/setup-APoS-EWC.py:151-156 | With `fra_ap` the JSON value `true` the example sends the 2.4 GHz pair at positions 37-38 and no dual-band tuning text anywhere in the script |

## Left out

- The serial connection is left out: opening it (line 59), `ser.write`, and reading and decoding the device's replies (lines 35-37). The model produces the text that is written and is not driven by replies.
- UTF-8 encoding of the written text (line 35): texts are modelled as sequences of characters, not bytes.
- `sleep` (line 36) is recorded as each command's settle time in integer milliseconds; no clock is modelled. Python's float seconds 0.5, 1 and 3 become 500, 1000 and 3000.
- The wait of about 71 seconds for the AP to rejoin (lines 143-148) sends no command, so it is not part of the command list.
- Printing (lines 37, 60, 143, 146-147, 171-172), argument parsing and JSON loading in `main` are left out. The configuration is taken as an already-built datatype.
- Config.ApConfig.mac: the MAC is a `string`, so a MAC that is not a JSON string is not modelled. A number, boolean or null makes `len` at line 71 raise a `TypeError`. A non-empty list makes the `'.'.join` raise one. Either way the script stops after the first three commands (lines 63, 64 and 67) have been sent. An empty list behaves like the empty string.
- Missing configuration keys, which raise a `KeyError` in the script, cannot occur, because the datatype has every field. A scalar field that is a JSON float, list, object or null is not modelled: `Scalar` covers strings, integers and booleans.
- The `tty` field is carried in the configuration but only names the serial port, so nothing depends on it.
- ScriptProperties.RadioExclusive: states which pair sits in the tuning slot only. `TuningSlot.RadioOmitted` adds that the other pair is sent nowhere in the script, under the condition below.
- TuningSlot.RadioOmitted: requires an AP name and a MAC without spaces. With spaces, the words of one command can spell another. `TuningSlot.SpacedNameCollision` shows this for the AP name "Survey-AP dot11 5ghz channel Y", 5 GHz channel "Y dot11 24ghz channel V" and 2.4 GHz channel "V". There, with `fra_ap` "true", the first 5 GHz command is the 2.4 GHz channel command.
- Provisioning.Preamble: its own contract gives only the length; `ScriptProperties.PreamblePlaced` states all 15 commands and `PreambleWaits` their waits.
- Provisioning.EncryptionSection: its own contract gives only the length; `ScriptProperties.EncryptionPlaced` states all four commands.
- Provisioning.TuningPair: its own contract gives only the length; `ScriptProperties.TuningExclusive` states which pair it is.
- Provisioning.RadioSection: its own contract gives only the length; `ScriptProperties.RadioSectionShape` states its parts.
- Provisioning.TailSection: its own contract gives only the length; `ScriptProperties.TailPlaced` states its commands.

=== FILE: ap_name.dfy ===
/** The factory default name of the access point, derived from its MAC address.

    The MAC string is cut into consecutive 4-character groups starting at
    index 0 (the last group keeps whatever is left, so it is shorter when the
    length is not a multiple of 4), the groups are joined with '.', and "AP" is
    put in front: "AABBCCDDEEFF" gives "APAABB.CCDD.EEFF". Nothing rejects a MAC
    of another length or alphabet.
 */
module ApName {
  import opened Options

  const Prefix: string := "AP"
  const Dot: char := '.'

  function Min(a: int, b: int): int {
    if a <= b then a else b
  }

  /** The slices `mac[i:i+4]` for i = 0, 4, 8, ... below `|mac|`. */
  function Groups(mac: string): seq<string>
    decreases |mac|
  {
    if |mac| == 0 then []
    else if |mac| <= 4 then [mac]
    else [mac[..4]] + Groups(mac[4..])
  }

  /** There are ceil(|mac| / 4) groups and group j is the slice of the MAC
      from 4j up to 4j + 4, or to the end, whichever comes first. */
  lemma {:induction false} GroupsSlices(mac: string)
    ensures |Groups(mac)| == (|mac| + 3) / 4
    ensures forall j :: 0 <= j < |Groups(mac)| ==>
              4 * j < |mac| && Groups(mac)[j] == mac[4 * j .. Min(4 * j + 4, |mac|)]
    decreases |mac|
  {
    if |mac| > 4 {
      var rest := mac[4..];
      var gs := Groups(mac);
      GroupsSlices(rest);
      assert gs == [mac[..4]] + Groups(rest);
      forall j | 0 <= j < |gs|
        ensures 4 * j < |mac| && gs[j] == mac[4 * j .. Min(4 * j + 4, |mac|)]
      {
        if j > 0 {
          assert gs[j] == Groups(rest)[j - 1];
          var lo := 4 * (j - 1);
          var hi := Min(lo + 4, |rest|);
          assert 4 * j == lo + 4 && Min(4 * j + 4, |mac|) == hi + 4;
          assert rest[lo..hi] == mac[lo + 4 .. hi + 4];
        }
      }
    }
  }

  /** `sep.join(parts)` for a one-character separator. */
  function Join(parts: seq<string>, sep: char): string
    decreases |parts|
  {
    if |parts| == 0 then []
    else if |parts| == 1 then parts[0]
    else parts[0] + [sep] + Join(parts[1..], sep)
  }

  function Concat(parts: seq<string>): string
    decreases |parts|
  {
    if |parts| == 0 then [] else parts[0] + Concat(parts[1..])
  }

  function RemoveDots(s: string): (r: string)
    ensures Dot !in r
    ensures |r| <= |s|
    decreases |s|
  {
    if |s| == 0 then []
    else if s[0] == Dot then RemoveDots(s[1..])
    else [s[0]] + RemoveDots(s[1..])
  }

  /** The name the access point carries before it is renamed. */
  function DefaultName(mac: string): string {
    Prefix + Join(Groups(mac), Dot)
  }

  /** Reads a default name back to the MAC it was made from: drop the "AP"
      prefix and the dots. Any other string has no MAC. */
  function MacOf(name: string): (r: Option<string>)
    ensures r.Some? <==> |name| >= |Prefix| && name[..|Prefix|] == Prefix
  {
    if |name| >= |Prefix| && name[..|Prefix|] == Prefix then Some(RemoveDots(name[|Prefix|..])) else None
  }

  /** Every group but the last has exactly 4 characters; the last has 1 to 4,
      and exactly 4 when the MAC length is a multiple of 4. */
  lemma {:induction false} GroupShape(mac: string)
    ensures forall j :: 0 <= j < |Groups(mac)| - 1 ==> |Groups(mac)[j]| == 4
    ensures |mac| > 0 ==> 1 <= |Groups(mac)[|Groups(mac)| - 1]| <= 4
    ensures |mac| > 0 ==> (|Groups(mac)[|Groups(mac)| - 1]| == 4 <==> |mac| % 4 == 0)
    decreases |mac|
  {
    if |mac| > 4 {
      var rest := mac[4..];
      GroupShape(rest);
      var gs := Groups(mac);
      assert gs == [mac[..4]] + Groups(rest);
      assert |mac| % 4 == |rest| % 4;
      forall j | 0 <= j < |gs| - 1 ensures |gs[j]| == 4 {
        if j > 0 {
          assert gs[j] == Groups(rest)[j - 1];
        }
      }
      assert gs[|gs| - 1] == Groups(rest)[|Groups(rest)| - 1];
    }
  }

  /** Every group has exactly 4 characters precisely when the MAC length is a
      multiple of 4. */
  lemma AllGroupsFull(mac: string)
    ensures (forall j :: 0 <= j < |Groups(mac)| ==> |Groups(mac)[j]| == 4) <==> |mac| % 4 == 0
  {
    GroupShape(mac);
  }

  /** Gluing the groups back together gives the MAC. */
  lemma {:induction false} ConcatGroups(mac: string)
    ensures Concat(Groups(mac)) == mac
    decreases |mac|
  {
    if |mac| == 0 {
    } else if |mac| <= 4 {
      assert Concat([mac]) == mac + Concat([]);
    } else {
      ConcatGroups(mac[4..]);
      assert Groups(mac)[1..] == Groups(mac[4..]);
      assert mac[..4] + mac[4..] == mac;
    }
  }

  lemma {:induction false} RemoveDotsAppend(a: string, b: string)
    ensures RemoveDots(a + b) == RemoveDots(a) + RemoveDots(b)
    decreases |a|
  {
    if |a| == 0 {
      assert a + b == b;
    } else {
      assert (a + b)[0] == a[0];
      assert (a + b)[1..] == a[1..] + b;
      RemoveDotsAppend(a[1..], b);
    }
  }

  lemma {:induction false} RemoveDotsNoDots(s: string)
    requires Dot !in s
    ensures RemoveDots(s) == s
    decreases |s|
  {
    if |s| > 0 {
      assert s[0] != Dot;
      assert Dot !in s[1..] by {
        forall k | 0 <= k < |s[1..]| ensures s[1..][k] != Dot {
          assert s[1..][k] == s[k + 1];
        }
      }
      RemoveDotsNoDots(s[1..]);
      assert [s[0]] + s[1..] == s;
    }
  }

  /** Dropping the dots around one separator keeps a dot-free head as it is. */
  lemma DropSeparator(head: string, rest: string)
    requires Dot !in head
    ensures RemoveDots(head + [Dot] + rest) == head + RemoveDots(rest)
  {
    RemoveDotsAppend(head + [Dot], rest);
    RemoveDotsAppend(head, [Dot]);
    RemoveDotsNoDots(head);
    assert RemoveDots([Dot]) == [];
  }

  /** Removing the separators from a dot-joined list of dot-free parts glues the parts. */
  lemma {:induction false} RemoveDotsJoin(parts: seq<string>)
    requires forall j :: 0 <= j < |parts| ==> Dot !in parts[j]
    ensures RemoveDots(Join(parts, Dot)) == Concat(parts)
    decreases |parts|
  {
    if |parts| == 0 {
    } else if |parts| == 1 {
      RemoveDotsNoDots(parts[0]);
      assert Concat(parts) == parts[0] + Concat([]);
    } else {
      var tail := parts[1..];
      assert Join(parts, Dot) == parts[0] + [Dot] + Join(tail, Dot);
      assert Concat(parts) == parts[0] + Concat(tail);
      DropSeparator(parts[0], Join(tail, Dot));
      assert forall j :: 0 <= j < |tail| ==> Dot !in tail[j] by {
        forall j | 0 <= j < |tail| ensures Dot !in tail[j] {
          assert tail[j] == parts[j + 1];
        }
      }
      RemoveDotsJoin(tail);
    }
  }

  /** A character absent from the MAC is absent from every group. */
  lemma GroupsAvoid(mac: string, x: char)
    requires x !in mac
    ensures forall j :: 0 <= j < |Groups(mac)| ==> x !in Groups(mac)[j]
  {
    var gs := Groups(mac);
    GroupsSlices(mac);
    forall j | 0 <= j < |gs| ensures x !in gs[j] {
      var lo := 4 * j;
      forall k | 0 <= k < |gs[j]| ensures gs[j][k] != x {
        assert gs[j][k] == mac[lo + k];
      }
    }
  }

  /** Joining adds only the separator. */
  lemma {:induction false} JoinAvoids(parts: seq<string>, sep: char, x: char)
    requires x != sep
    requires forall j :: 0 <= j < |parts| ==> x !in parts[j]
    ensures x !in Join(parts, sep)
    decreases |parts|
  {
    if |parts| > 1 {
      var tail := parts[1..];
      assert forall j :: 0 <= j < |tail| ==> x !in tail[j] by {
        forall j | 0 <= j < |tail| ensures x !in tail[j] {
          assert tail[j] == parts[j + 1];
        }
      }
      JoinAvoids(tail, sep, x);
      assert x !in parts[0];
    }
  }

  /** The default name is made of the prefix, dots and the MAC's own
      characters: any other character, a space say, is absent from it when
      it is absent from the MAC. */
  lemma DefaultNameAvoids(mac: string, x: char)
    requires x !in mac && x != Dot && x !in Prefix
    ensures x !in DefaultName(mac)
  {
    GroupsAvoid(mac, x);
    JoinAvoids(Groups(mac), Dot, x);
  }

  /** Reading the default name back gives the MAC, for any MAC without dots
      (in particular every hexadecimal MAC, whatever its length). */
  lemma DefaultNameRoundTrip(mac: string)
    requires Dot !in mac
    ensures MacOf(DefaultName(mac)) == Some(mac)
  {
    var gs := Groups(mac);
    GroupsAvoid(mac, Dot);
    RemoveDotsJoin(gs);
    ConcatGroups(mac);
    var name := DefaultName(mac);
    assert name[..|Prefix|] == Prefix;
    assert name[|Prefix|..] == Join(gs, Dot);
  }

  lemma ExampleGroups()
    ensures Groups("AABBCCDDEEFF") == ["AABB", "CCDD", "EEFF"]
  {
    assert Groups("EEFF") == ["EEFF"];
    assert "CCDDEEFF"[..4] == "CCDD" && "CCDDEEFF"[4..] == "EEFF";
    assert Groups("CCDDEEFF") == ["CCDD", "EEFF"];
    assert "AABBCCDDEEFF"[..4] == "AABB" && "AABBCCDDEEFF"[4..] == "CCDDEEFF";
  }

  lemma ExampleJoin()
    ensures Join(["AABB", "CCDD", "EEFF"], Dot) == "AABB.CCDD.EEFF"
  {
    assert ["AABB", "CCDD", "EEFF"][1..] == ["CCDD", "EEFF"];
    assert ["CCDD", "EEFF"][1..] == ["EEFF"];
    assert Join(["CCDD", "EEFF"], Dot) == "CCDD.EEFF";
  }

  /** The worked example: a 12-digit MAC gives three groups. */
  lemma DefaultNameExample()
    ensures DefaultName("AABBCCDDEEFF") == "APAABB.CCDD.EEFF"
  {
    ExampleGroups();
    ExampleJoin();
  }

  /** A MAC of a length that is not a multiple of 4 is accepted and yields a
      short last group: "AABBC" gives "APAABB.C". */
  lemma ShortGroupExample()
    ensures DefaultName("AABBC") == "APAABB.C"
  {
    assert "AABBC"[..4] == "AABB" && "AABBC"[4..] == "C";
    assert Groups("AABBC") == ["AABB", "C"];
  }
}

=== FILE: blocks.dfy ===
/** The two shapes of repeated section in the provisioning script: one block
    of commands per list element, in list order, either numbered (the WLAN
    blocks carry a 1-based id) or not (the policy blocks and the tag
    bindings). The facts here hold for any block builder.
 */
module Blocks {
  import opened Console

  /** `block(xs[0], first) + block(xs[1], first + 1) + ...` */
  function Numbered<T>(xs: seq<T>, first: nat, block: (T, nat) -> seq<Cmd>): seq<Cmd>
    decreases |xs|
  {
    if |xs| == 0 then [] else block(xs[0], first) + Numbered(xs[1..], first + 1, block)
  }

  /** `block(xs[0]) + block(xs[1]) + ...` */
  function Each<T>(xs: seq<T>, block: T -> seq<Cmd>): seq<Cmd>
    decreases |xs|
  {
    if |xs| == 0 then [] else block(xs[0]) + Each(xs[1..], block)
  }

  /** Every command of `cmds` has property `p`. */
  predicate Every(cmds: seq<Cmd>, p: Cmd -> bool) {
    forall i :: 0 <= i < |cmds| ==> p(cmds[i])
  }

  predicate HasDefaultWait(cmd: Cmd) {
    cmd.waitMs == DefaultWaitMs
  }

  /** Every command is followed by the default pause. */
  predicate DefaultPaced(cmds: seq<Cmd>) {
    Every(cmds, HasDefaultWait)
  }

  /** The numbered blocks are the first k blocks, then block k, numbered
      first + k, then the rest: no block is split or interleaved with another. */
  lemma {:induction false} NumberedSplit<T>(xs: seq<T>, first: nat, block: (T, nat) -> seq<Cmd>, k: nat)
    requires k < |xs|
    ensures Numbered(xs, first, block)
         == Numbered(xs[..k], first, block) + block(xs[k], first + k) + Numbered(xs[k + 1..], first + k + 1, block)
    decreases k
  {
    if k == 0 {
      assert xs[..0] == [];
    } else {
      NumberedSplit(xs[1..], first + 1, block, k - 1);
      assert xs[1..][..k - 1] == xs[..k][1..];
      assert xs[1..][k - 1] == xs[k];
      assert xs[1..][k..] == xs[k + 1..];
      assert xs[..k][0] == xs[0];
    }
  }

  /** One more element appends its block, numbered after the others. */
  lemma NumberedSnoc<T>(xs: seq<T>, block: (T, nat) -> seq<Cmd>, k: nat)
    requires k < |xs|
    ensures Numbered(xs[..k + 1], 1, block) == Numbered(xs[..k], 1, block) + block(xs[k], k + 1)
  {
    var pre := xs[..k + 1];
    NumberedSplit(pre, 1, block, k);
    assert pre[..k] == xs[..k];
    assert pre[k + 1..] == [];
  }

  /** The unnumbered blocks are the first k blocks, then block k, then the rest. */
  lemma {:induction false} EachSplit<T>(xs: seq<T>, block: T -> seq<Cmd>, k: nat)
    requires k < |xs|
    ensures Each(xs, block) == Each(xs[..k], block) + block(xs[k]) + Each(xs[k + 1..], block)
    decreases k
  {
    if k == 0 {
      assert xs[..0] == [];
    } else {
      EachSplit(xs[1..], block, k - 1);
      assert xs[1..][..k - 1] == xs[..k][1..];
      assert xs[1..][k - 1] == xs[k];
      assert xs[1..][k..] == xs[k + 1..];
      assert xs[..k][0] == xs[0];
    }
  }

  /** Blocks of a fixed length L make L commands per element. */
  lemma {:induction false} EachLength<T>(xs: seq<T>, block: T -> seq<Cmd>, len: nat)
    requires forall j :: 0 <= j < |xs| ==> |block(xs[j])| == len
    ensures |Each(xs, block)| == len * |xs|
    decreases |xs|
  {
    if |xs| > 0 {
      var tail := xs[1..];
      assert forall j :: 0 <= j < |tail| ==> |block(tail[j])| == len by {
        forall j | 0 <= j < |tail| ensures |block(tail[j])| == len {
          assert tail[j] == xs[j + 1];
        }
      }
      EachLength(tail, block, len);
      assert len * |xs| == len + len * |tail|;
    }
  }

  lemma {:induction false} EachEvery<T>(xs: seq<T>, block: T -> seq<Cmd>, p: Cmd -> bool)
    requires forall j :: 0 <= j < |xs| ==> Every(block(xs[j]), p)
    ensures Every(Each(xs, block), p)
    decreases |xs|
  {
    if |xs| > 0 {
      var tail := xs[1..];
      assert forall j :: 0 <= j < |tail| ==> Every(block(tail[j]), p) by {
        forall j | 0 <= j < |tail| ensures Every(block(tail[j]), p) {
          assert tail[j] == xs[j + 1];
        }
      }
      EachEvery(tail, block, p);
      assert Every(block(xs[0]), p);
      EveryConcat(block(xs[0]), Each(tail, block), p);
    }
  }

  lemma {:induction false} NumberedEvery<T>(xs: seq<T>, first: nat, block: (T, nat) -> seq<Cmd>, p: Cmd -> bool)
    requires forall j :: 0 <= j < |xs| ==> Every(block(xs[j], first + j), p)
    ensures Every(Numbered(xs, first, block), p)
    decreases |xs|
  {
    if |xs| > 0 {
      var tail := xs[1..];
      assert forall j :: 0 <= j < |tail| ==> Every(block(tail[j], first + 1 + j), p) by {
        forall j | 0 <= j < |tail| ensures Every(block(tail[j], first + 1 + j), p) {
          assert tail[j] == xs[j + 1];
        }
      }
      NumberedEvery(tail, first + 1, block, p);
      assert Every(block(xs[0], first + 0), p);
      EveryConcat(block(xs[0], first + 0), Numbered(tail, first + 1, block), p);
    }
  }

  lemma EveryConcat(a: seq<Cmd>, b: seq<Cmd>, p: Cmd -> bool)
    requires Every(a, p) && Every(b, p)
    ensures Every(a + b, p)
  {
    forall i | 0 <= i < |a + b| ensures p((a + b)[i]) {
      if i >= |a| {
        assert (a + b)[i] == b[i - |a|];
      }
    }
  }

  lemma EveryConcat4(a: seq<Cmd>, b: seq<Cmd>, c: seq<Cmd>, d: seq<Cmd>, p: Cmd -> bool)
    requires Every(a, p) && Every(b, p) && Every(c, p) && Every(d, p)
    ensures Every(a + b + c + d, p)
  {
    EveryConcat(a, b, p);
    EveryConcat(a + b, c, p);
    EveryConcat(a + b + c, d, p);
  }

  // Regrouping and slicing concatenations, stated once for any sequences so
  // that the facts about the script do not re-prove them on its contents.

  lemma Halves<T>(a: seq<T>, b: seq<T>)
    ensures (a + b)[..|a|] == a
    ensures (a + b)[|a| .. |a| + |b|] == b
  {
  }

  lemma SliceMiddle<T>(a: seq<T>, b: seq<T>, c: seq<T>)
    ensures (a + b + c)[|a| .. |a| + |b|] == b
  {
  }

  /** A slice of a slice is a slice of the whole. */
  lemma SliceOfSlice<T>(s: seq<T>, part: seq<T>, at: nat, i: nat, j: nat)
    requires at + |part| <= |s| && s[at .. at + |part|] == part
    requires i <= j <= |part|
    ensures s[at + i .. at + j] == part[i..j]
  {
    forall k | 0 <= k < j - i ensures s[at + i .. at + j][k] == part[i..j][k] {
      assert part[i + k] == s[at .. at + |part|][i + k];
    }
  }

  /** A part of a slice is a part of the whole. */
  lemma SliceWithin<T>(s: seq<T>, part: seq<T>, at: nat, i: nat, b: seq<T>)
    requires at + |part| <= |s| && s[at .. at + |part|] == part
    requires i + |b| <= |part| && part[i .. i + |b|] == b
    ensures at + i + |b| <= |s| && s[at + i .. at + i + |b|] == b
  {
    SliceOfSlice(s, part, at, i, i + |b|);
  }

  /** A prefix of a slice is a slice of the whole. */
  lemma SlicePrefix<T>(s: seq<T>, part: seq<T>, at: nat, j: nat)
    requires at + |part| <= |s| && s[at .. at + |part|] == part
    requires j <= |part|
    ensures s[at .. at + j] == part[..j]
  {
    SliceOfSlice(s, part, at, 0, j);
    assert at + 0 == at;
  }

  /** The settle times of a sequence made of a head `p`, a default-paced
      middle `m` and an end `t`. */
  lemma PacedMiddle(s: seq<Cmd>, p: seq<Cmd>, m: seq<Cmd>, t: seq<Cmd>)
    requires |p| + |m| + |t| == |s|
    requires s[0 .. |p|] == p
    requires s[|p| .. |p| + |m|] == m
    requires s[|s| - |t| .. |s|] == t
    requires DefaultPaced(m)
    ensures forall i :: 0 <= i < |s| ==>
              s[i].waitMs == (if i < |p| then p[i].waitMs
                              else if i < |p| + |m| then DefaultWaitMs
                              else t[i - |p| - |m|].waitMs)
  {
    forall i | 0 <= i < |s|
      ensures s[i].waitMs == (if i < |p| then p[i].waitMs
                              else if i < |p| + |m| then DefaultWaitMs
                              else t[i - |p| - |m|].waitMs)
    {
      if i < |p| {
        SliceAt(s, p, 0, i);
      } else if i < |p| + |m| {
        SliceAt(s, m, |p|, i - |p|);
      } else {
        SliceAt(s, t, |s| - |t|, i - |p| - |m|);
      }
    }
  }

  /** An element of a slice is an element of the whole. */
  lemma SliceAt<T>(s: seq<T>, part: seq<T>, at: nat, i: nat)
    requires at + |part| <= |s| && s[at .. at + |part|] == part
    requires i < |part|
    ensures s[at + i] == part[i]
  {
    assert part[i] == s[at .. at + |part|][i];
  }

  /** A concatenation of seven parts, cut around any one of them. */
  lemma Around<T>(a: seq<T>, b: seq<T>, c: seq<T>, d: seq<T>, e: seq<T>, f: seq<T>, g: seq<T>)
    ensures a + b + c + d + e + f + g == [] + a + (b + c + d + e + f + g)
    ensures a + b + c + d + e + f + g == a + b + (c + d + e + f + g)
    ensures a + b + c + d + e + f + g == (a + b) + c + (d + e + f + g)
    ensures a + b + c + d + e + f + g == (a + b + c) + d + (e + f + g)
    ensures a + b + c + d + e + f + g == (a + b + c + d) + e + (f + g)
    ensures a + b + c + d + e + f + g == (a + b + c + d + e) + f + g
    ensures a + b + c + d + e + f + g == (a + b + c + d + e + f) + g + []
    ensures a + b + c + d + e + f + g == a + (b + c + d + e + f) + g
  {
  }
}

=== FILE: config.dfy ===
/** The provisioning configuration, as the JSON document delivers it.

    Most fields are only spliced into command text. The fields the script
    compares with string literals (`fra_ap`, a WLAN's `band`) or formats with
    an f-string (channels, tx-powers) may hold any JSON scalar, so they are
    `Scalar`s: a JSON `true` is not the string "true", and an f-string prints
    the number 36 as "36" and the boolean true as "True".
 */
module Config {
  import Decimal

  datatype Scalar = Text(s: string) | Int(i: int) | Bool(b: bool)

  /** How an f-string prints a scalar (Python's `str()`). */
  function Render(v: Scalar): (r: string)
    ensures v.Text? ==> r == v.s
    ensures v.Int? && v.i >= 0 ==> Decimal.AllDigits(r) && Decimal.ToNat(r) == v.i
    ensures v.Int? && v.i >= 0 ==> |r| >= 1 && (r[0] == '0' <==> v.i == 0)
    ensures v.Int? && v.i < 0 ==>
              && |r| >= 2 && r[0] == '-' && r[1] != '0'
              && Decimal.AllDigits(r[1..]) && Decimal.ToNat(r[1..]) == -v.i
    ensures v.Bool? ==> r == (if v.b then "True" else "False")
  {
    match v
    case Text(s) => s
    case Int(i) => (if i >= 0 then Decimal.RoundTrip(i); Decimal.FromInt(i) else Decimal.RoundTrip(-i); Decimal.FromInt(i))
    case Bool(b) => if b then "True" else "False"
  }

  /** Channel and transmit power of one radio band. */
  datatype RadioSettings = RadioSettings(channel: Scalar, txPower: Scalar)

  datatype ApConfig = ApConfig(
    mac: string,
    name: string,
    ip: string,
    netmask: string,
    gateway: string,
    fraAp: Scalar,
    band24: RadioSettings,
    band5: RadioSettings,
    bandFra: RadioSettings)

  /** The embedded wireless controller. */
  datatype EwcConfig = EwcConfig(name: string, ip: string, username: string, password: string)

  datatype Wlan = Wlan(name: string, ssid: string, band: Scalar, psk: string)

  datatype ProvisioningConfig = ProvisioningConfig(
    tty: string,
    ap: ApConfig,
    ewc: EwcConfig,
    wlans: seq<Wlan>)
}

=== FILE: console.dfy ===
/** The console driver's framing: one command becomes one line on the serial wire.

    `send_to_console` appends a carriage return to the command text, writes it,
    and then sleeps for the command's settle time (0.5 s unless the caller gives
    another). Here a command is the pair of its text and its settle time in
    milliseconds, and the serial writes of a whole script are the concatenation
    of the framed commands. `Deframe` is what a line-oriented console makes of
    that stream: it cuts it at every carriage return.
 */
module Console {
  import opened Options

  const CR: char := '\r'

  /** The settle time `send_to_console` uses when the caller does not pass one. */
  const DefaultWaitMs: nat := 500

  datatype Cmd = Cmd(text: string, waitMs: nat)

  /** A command sent with the default settle time. */
  function Send(text: string): Cmd {
    Cmd(text, DefaultWaitMs)
  }

  /** A command whose caller overrides the settle time. */
  function SendWait(text: string, waitMs: nat): Cmd {
    Cmd(text, waitMs)
  }

  predicate CrFree(s: string) {
    CR !in s
  }

  /** The characters written to the serial port for one command. */
  function Wire(c: Cmd): string {
    c.text + [CR]
  }

  /** The command text carried by one framed line, if it is framed at all. */
  function Unframe(w: string): (r: Option<string>)
    ensures r.Some? <==> |w| >= 1 && w[|w| - 1] == CR
    ensures r.Some? ==> w == r.value + [CR]
  {
    if |w| >= 1 && w[|w| - 1] == CR then Some(w[..|w| - 1]) else None
  }

  /** Every framed command is the command's text followed by exactly one added
      carriage return, and unframing it gives the text back. */
  lemma WireFraming(c: Cmd)
    ensures |Wire(c)| == |c.text| + 1
    ensures Wire(c)[..|c.text|] == c.text
    ensures Wire(c)[|c.text|] == CR
    ensures Unframe(Wire(c)) == Some(c.text)
  {
    assert Wire(c)[..|Wire(c)| - 1] == c.text;
  }

  /** Everything written to the serial port, in order, for a list of commands. */
  function WireStream(cmds: seq<Cmd>): (w: string)
    ensures |w| >= |cmds|
  {
    if |cmds| == 0 then [] else Wire(cmds[0]) + WireStream(cmds[1..])
  }

  /** The sum of the settle times of a list of commands. */
  function TotalWaitMs(cmds: seq<Cmd>): nat {
    if |cmds| == 0 then 0 else cmds[0].waitMs + TotalWaitMs(cmds[1..])
  }

  function Texts(cmds: seq<Cmd>): (ts: seq<string>)
    ensures |ts| == |cmds|
    ensures forall i :: 0 <= i < |cmds| ==> ts[i] == cmds[i].text
  {
    seq(|cmds|, i requires 0 <= i < |cmds| => cmds[i].text)
  }

  /** The lines a console receives from a character stream: `pending` is the
      line typed so far; every carriage return completes it. Characters after
      the last carriage return are not a complete line yet. */
  function DeframeFrom(s: string, pending: string): (lines: seq<string>)
    decreases |s|
  {
    if |s| == 0 then []
    else if s[0] == CR then [pending] + DeframeFrom(s[1..], [])
    else DeframeFrom(s[1..], pending + [s[0]])
  }

  function Deframe(s: string): seq<string> {
    DeframeFrom(s, [])
  }

  /** A line without carriage returns, once terminated, is received whole. */
  lemma {:induction false} DeframeLine(t: string, rest: string, pending: string)
    requires CrFree(t)
    ensures DeframeFrom(t + [CR] + rest, pending) == [pending + t] + DeframeFrom(rest, [])
    decreases |t|
  {
    if |t| == 0 {
      var s := t + [CR] + rest;
      assert s[0] == CR && s[1..] == rest;
      assert pending + t == pending;
    } else {
      var s := t + [CR] + rest;
      assert s[0] == t[0];
      assert s[1..] == t[1..] + [CR] + rest;
      DeframeLine(t[1..], rest, pending + [t[0]]);
      assert pending + [t[0]] + t[1..] == pending + t;
    }
  }

  /** When no command text contains a carriage return, the console receives
      exactly the command texts, one line per command, in order. */
  lemma {:induction false} DeframeWireStream(cmds: seq<Cmd>)
    requires forall i :: 0 <= i < |cmds| ==> CrFree(cmds[i].text)
    ensures Deframe(WireStream(cmds)) == Texts(cmds)
  {
    if |cmds| > 0 {
      DeframeLine(cmds[0].text, WireStream(cmds[1..]), []);
      assert WireStream(cmds) == cmds[0].text + [CR] + WireStream(cmds[1..]);
      assert [] + cmds[0].text == cmds[0].text;
      DeframeWireStream(cmds[1..]);
      assert Texts(cmds) == [cmds[0].text] + Texts(cmds[1..]);
    }
  }

  /** A text that ends in its own carriage return reaches the console as that
      line followed by an extra empty line. */
  lemma DeframeTrailingCr(t: string)
    requires CrFree(t)
    ensures Deframe(Wire(Send(t + [CR]))) == [t, []]
  {
    DeframeLine(t, [CR], []);
    assert Wire(Send(t + [CR])) == t + [CR] + [CR];
    assert [] + t == t;
    assert DeframeFrom([CR], []) == [[]] + DeframeFrom([], []);
  }

  lemma {:induction false} WireStreamAppend(a: seq<Cmd>, b: seq<Cmd>)
    ensures WireStream(a + b) == WireStream(a) + WireStream(b)
    ensures TotalWaitMs(a + b) == TotalWaitMs(a) + TotalWaitMs(b)
  {
    if |a| > 0 {
      assert (a + b)[1..] == a[1..] + b;
      WireStreamAppend(a[1..], b);
    } else {
      assert a + b == b;
    }
  }

  /** The driver loop: each command is framed and written in turn and its
      settle time is waited out before the next one. Returns the characters
      written and the total time spent settling. */
  method Transmit(cmds: seq<Cmd>) returns (written: string, waitedMs: nat)
    ensures written == WireStream(cmds)
    ensures waitedMs == TotalWaitMs(cmds)
    ensures (forall i :: 0 <= i < |cmds| ==> CrFree(cmds[i].text)) ==> Deframe(written) == Texts(cmds)
  {
    written := [];
    waitedMs := 0;
    var k := 0;
    while k < |cmds|
      invariant 0 <= k <= |cmds|
      invariant written == WireStream(cmds[..k])
      invariant waitedMs == TotalWaitMs(cmds[..k])
    {
      WireStreamAppend(cmds[..k], [cmds[k]]);
      assert cmds[..k + 1] == cmds[..k] + [cmds[k]];
      written := written + Wire(cmds[k]);
      waitedMs := waitedMs + cmds[k].waitMs;
      k := k + 1;
    }
    assert cmds[..k] == cmds;
    if forall i :: 0 <= i < |cmds| ==> CrFree(cmds[i].text) {
      DeframeWireStream(cmds);
    }
  }
}

=== FILE: decimal.dfy ===
/** Decimal rendering of integers, as Python's `str()` and f-strings print them.

    The provisioning script formats the 1-based WLAN counter (and any integer
    channel or tx-power value of the configuration) in decimal. `FromNat` is
    the rendering; `ToNat` is its inverse, so the number a command carries can
    be read back from its text.
 */
module Decimal {

  predicate IsDigit(c: char) {
    '0' <= c <= '9'
  }

  predicate AllDigits(s: string) {
    forall i :: 0 <= i < |s| ==> IsDigit(s[i])
  }

  function DigitChar(d: nat): (c: char)
    requires d < 10
    ensures IsDigit(c)
    ensures c as int - '0' as int == d
  {
    (d + '0' as int) as char
  }

  function DigitValue(c: char): (d: nat)
    requires IsDigit(c)
    ensures d < 10
    ensures DigitChar(d) == c
  {
    c as int - '0' as int
  }

  /** The decimal digits of `n`, most significant first, without leading zeros. */
  function FromNat(n: nat): (s: string)
    ensures |s| >= 1
    ensures AllDigits(s)
    ensures s[0] == '0' <==> n == 0
    decreases n
  {
    if n < 10 then [DigitChar(n)] else FromNat(n / 10) + [DigitChar(n % 10)]
  }

  /** Reads a string of decimal digits back as a number (the empty string reads as 0). */
  function ToNat(s: string): (n: nat)
    requires AllDigits(s)
    decreases |s|
  {
    if |s| == 0 then 0 else ToNat(s[..|s| - 1]) * 10 + DigitValue(s[|s| - 1])
  }

  /** Reading back a rendered number gives the number. */
  lemma {:induction false} RoundTrip(n: nat)
    ensures ToNat(FromNat(n)) == n
    decreases n
  {
    var s := FromNat(n);
    if n < 10 {
      assert s[..|s| - 1] == [];
    } else {
      RoundTrip(n / 10);
      assert s[..|s| - 1] == FromNat(n / 10);
      assert DigitValue(s[|s| - 1]) == n % 10;
    }
  }

  /** Distinct numbers render to distinct strings. */
  lemma FromNatInjective(m: nat, n: nat)
    ensures FromNat(m) == FromNat(n) <==> m == n
  {
    RoundTrip(m);
    RoundTrip(n);
  }

  /** Python's `str()` of any integer: a minus sign before the magnitude when negative. */
  function FromInt(i: int): (s: string)
    ensures i >= 0 ==> s == FromNat(i)
    ensures i < 0 ==> |s| >= 2 && s[0] == '-' && s[1..] == FromNat(-i)
  {
    if i < 0 then "-" + FromNat(-i) else FromNat(i)
  }

  /** The longest run of digits at the start of `s`. */
  function LeadingDigits(s: string): (d: string)
    ensures AllDigits(d)
    ensures |d| <= |s| && d == s[..|d|]
    decreases |s|
  {
    if |s| == 0 || !IsDigit(s[0]) then [] else [s[0]] + LeadingDigits(s[1..])
  }

  /** A run of digits followed by a non-digit (or nothing) is read off whole. */
  lemma {:induction false} LeadingDigitsStop(d: string, rest: string)
    requires AllDigits(d)
    requires |rest| == 0 || !IsDigit(rest[0])
    ensures LeadingDigits(d + rest) == d
    decreases |d|
  {
    if |d| == 0 {
      assert d + rest == rest;
    } else {
      assert (d + rest)[0] == d[0];
      assert (d + rest)[1..] == d[1..] + rest;
      LeadingDigitsStop(d[1..], rest);
      assert [d[0]] + d[1..] == d;
    }
  }
}

=== FILE: options.dfy ===
/** An optional value: what a read-back returns when its input may not
    carry what is being read. */
module Options {
  datatype Option<T> = None | Some(value: T)
}

=== FILE: scenario.dfy ===
/** A worked example: a controller named EWC1 at 10.0.0.5, one WLAN "Survey"
    on the 5 GHz band, and an access point tuned through its flexible
    (dual-band) radio because its `fra_ap` field is the string "true".

    The facts are stated for every configuration with those field values;
    the other fields (addresses of the AP, radio settings, credentials) may
    be anything.
 */
module Scenario {
  import opened Console
  import opened Config
  import opened Provisioning
  import opened ScriptProperties
  import opened TuningSlot
  import ApName
  import Decimal

  function SurveyWlan(): Wlan {
    Wlan("Survey", "SurveyNet", Text("5"), "abc12345")
  }

  predicate IsSurveySetup(c: ProvisioningConfig) {
    && c.ap.mac == "AABBCCDDEEFF"
    && c.ap.name == "APoS-1"
    && c.ewc.name == "EWC1"
    && c.ewc.ip == "10.0.0.5"
    && c.wlans == [SurveyWlan()]
  }

  /** The one WLAN names the 5 GHz band, so its block has a radio line. */
  lemma SurveyWlanCount()
    ensures KnownBandCount([SurveyWlan()]) == 1
  {
    assert [SurveyWlan()][1..] == [];
  }

  /** 27 fixed commands, 15 for the WLAN and one for its radio line. */
  lemma ExampleLength(c: ProvisioningConfig)
    requires IsSurveySetup(c)
    ensures |Script(c)| == 43
    ensures RadioStart(c) == 37
  {
    SurveyWlanCount();
    ScriptLength(c);
  }

  /** The rename command of the example: the factory name comes from the MAC. */
  lemma ExampleRenameText(ap: ApConfig)
    requires ap.mac == "AABBCCDDEEFF" && ap.name == "APoS-1"
    ensures RenameText(ap) == "ap name " + "APAABB.CCDD.EEFF" + " name " + "APoS-1"
  {
    ApName.DefaultNameExample();
  }

  /** The `wlan` command of the example: the first WLAN gets id 1. */
  lemma ExampleWlanText(c: ProvisioningConfig)
    requires IsSurveySetup(c)
    ensures WlanCreateText(c.wlans[0], 1) == "wlan Survey 1 \"SurveyNet\""
  {
    assert Decimal.FromNat(1) == "1";
  }

  lemma ExampleOpeningPlaced(c: ProvisioningConfig, s: seq<Cmd>)
    requires IsSurveySetup(c)
    requires PreambleLen <= |s|
    requires s[0 .. PreambleLen] == Preamble(c)
    ensures s[3] == Send("ap name " + "APAABB.CCDD.EEFF" + " name " + "APoS-1")
    ensures s[9] == Send("hostname " + "EWC1")
    ensures s[11] == SendWait("ip address " + "10.0.0.5" + " 255.255.255.0", 3000)
  {
    ExampleRenameText(c.ap);
    PreamblePlaced(c, s);
  }

  /** The AP is renamed from its factory name, then the controller gets its
      hostname and its address (with the 3 s settle time). */
  lemma ExampleOpening(c: ProvisioningConfig)
    requires IsSurveySetup(c)
    ensures var s := Script(c);
            && |s| > 11
            && s[3] == Send("ap name " + "APAABB.CCDD.EEFF" + " name " + "APoS-1")
            && s[9] == Send("hostname " + "EWC1")
            && s[11] == SendWait("ip address " + "10.0.0.5" + " 255.255.255.0", 3000)
  {
    PreambleAt(c);
    ExampleOpeningPlaced(c, Script(c));
  }

  lemma ExampleWlanPlaced(c: ProvisioningConfig, s: seq<Cmd>)
    requires IsSurveySetup(c)
    requires PolicyStart(c) <= |s|
    requires s[PreambleLen .. PreambleLen + |WlanSection(c.wlans)|] == WlanSection(c.wlans)
    ensures 16 < |s|
    ensures s[15] == Send("wlan Survey 1 \"SurveyNet\"")
    ensures s[16] == Send("radio dot11a")
  {
    var w := c.wlans[0];
    var b := WlanBlock(w, 1);
    assert c.wlans[..0] == [];
    assert WlanBlockStart(c.wlans, 0) == 15;
    ExampleWlanText(c);
    BandLine(w, 1);
    WlanBlockPlaced(c, s, 0);
    Blocks.SliceAt(s, b, 15, 1);
  }

  /** The single WLAN is created with id 1 and put on the 5 GHz radio. */
  lemma ExampleWlan(c: ProvisioningConfig)
    requires IsSurveySetup(c)
    ensures var s := Script(c);
            && |s| > 16
            && s[15] == Send("wlan Survey 1 \"SurveyNet\"")
            && s[16] == Send("radio dot11a")
  {
    WlanSectionAt(c);
    ExampleWlanPlaced(c, Script(c));
  }

  /** The example's AP name and MAC are single words. */
  lemma SurveyNamesSpaceFree(c: ProvisioningConfig)
    requires IsSurveySetup(c)
    ensures ' ' !in c.ap.name && ' ' !in c.ap.mac
  {
    assert c.ap.name == "APoS-1" && c.ap.mac == "AABBCCDDEEFF";
  }

  /** With `fra_ap` the string "true", the dual-band pair is sent at
      positions 37 and 38 and no 2.4 GHz tuning command is sent anywhere;
      the script ends with `write memory`. */
  lemma ExampleRadioAndEnd(c: ProvisioningConfig)
    requires IsSurveySetup(c) && c.ap.fraAp == Text("true")
    ensures var s := Script(c);
            && |s| == 43
            && s[37..39] == DualBandPair(c.ap)
            && (forall i :: 0 <= i < |s| ==> s[i].text !in Texts(Band24Pair(c.ap)))
            && s[42] == Send("write memory")
  {
    ExampleLength(c);
    RadioExclusive(c);
    SurveyNamesSpaceFree(c);
    RadioOmitted(c);
    ScriptTail(c);
  }

  /** A JSON `true` is not the string "true": with it, the 2.4 GHz pair is
      sent at positions 37 and 38 and no dual-band command is sent anywhere. */
  lemma JsonBooleanSelects24Ghz(c: ProvisioningConfig)
    requires IsSurveySetup(c) && c.ap.fraAp == Bool(true)
    ensures var s := Script(c);
            && |s| == 43
            && s[37..39] == Band24Pair(c.ap)
            && (forall i :: 0 <= i < |s| ==> s[i].text !in Texts(DualBandPair(c.ap)))
  {
    ExampleLength(c);
    RadioExclusive(c);
    SurveyNamesSpaceFree(c);
    RadioOmitted(c);
  }
}

=== FILE: script.dfy ===
/** The provisioning command script of `configure_APoS`, with the serial I/O
    taken out: a total function from the configuration to the ordered list of
    commands (text and settle time) that the driver sends.

    The script is the concatenation of seven sections, in this order:
      Preamble        wake lines, enable, rename, global config, controller
                      identity, admin user and AP profile (15 commands)
      WlanSection     one WLAN block per configured WLAN, ids 1, 2, ...
      PolicySection   one 8-command wireless policy block per WLAN
      TagSection      the default policy tag binding every WLAN to its policy
      EncryptionSection  password encryption, ending with `end`
      RadioSection    the radio pair chosen by `fra_ap`, then the 5 GHz pair
      TailSection     the AP's static address and `write memory`
 */
module Provisioning {
  import opened Options
  import opened Console
  import opened Config
  import opened Blocks
  import ApName
  import Decimal

  /** Settle times the script passes explicitly (milliseconds). */
  const WakeWaitMs: nat := 1000
  const InterfaceIpWaitMs: nat := 3000
  const CredentialWaitMs: nat := 1000
  const StaticIpWaitMs: nat := 1000

  const PreambleLen: nat := 15
  const EncryptionLen: nat := 4
  const RadioLen: nat := 4
  const TailLen: nat := 2

  /** The AP name the 5 GHz commands address, whatever the configured AP name is. */
  const SurveyApName: string := "Survey-AP"

  const ExitText: string := "exit"
  const SaveText: string := "write memory"

  // ---------------------------------------------------------------- preamble

  function RenameText(ap: ApConfig): string {
    "ap name " + ApName.DefaultName(ap.mac) + " name " + ap.name
  }

  function Preamble(c: ProvisioningConfig): (r: seq<Cmd>)
    ensures |r| == PreambleLen
  {
    var u := c.ewc.username;
    var p := c.ewc.password;
    [ Send(""),
      SendWait("", WakeWaitMs),
      Send("enable"),
      Send(RenameText(c.ap)),
      Send("conf t"),
      Send("line console 0"),
      Send("logging sync"),
      Send(ExitText),
      Send("netconf-yang"),
      Send("hostname " + c.ewc.name),
      Send("interface gigabitEthernet 0"),
      SendWait("ip address " + c.ewc.ip + " 255.255.255.0", InterfaceIpWaitMs),
      SendWait("username " + u + " privilege 15 password " + p, CredentialWaitMs),
      Send("ap profile default-ap-profile"),
      SendWait("mgmtuser username " + u + " password 0 " + p + " secret 0 " + p, CredentialWaitMs) ]
  }

  // ----------------------------------------------------------------- WLANs

  /** `wlan <name> <id> "<ssid>"`, with the id in decimal. */
  function WlanCreateText(w: Wlan, id: nat): string {
    "wlan " + w.name + " " + Decimal.FromNat(id) + " \"" + w.ssid + "\""
  }

  /** The WLAN id a `wlan` command carries, read back from its text given the
      WLAN: the digits that follow `wlan <name> `. */
  function WlanIdOf(w: Wlan, text: string): (r: Option<nat>)
    ensures r.Some? ==> |text| > |"wlan " + w.name + " "|
  {
    var head := "wlan " + w.name + " ";
    if |head| <= |text| && text[..|head|] == head then
      var digits := Decimal.LeadingDigits(text[|head|..]);
      if |digits| == 0 then None else Some(Decimal.ToNat(digits))
    else None
  }

  /** Whether the band selects a radio: only the strings "5" and "2.4" do. */
  predicate KnownBand(band: Scalar) {
    band == Text("5") || band == Text("2.4")
  }

  /** The optional radio line of a WLAN block. */
  function RadioLine(band: Scalar): (r: seq<Cmd>)
    ensures |r| == 1 <==> KnownBand(band)
    ensures |r| <= 1
  {
    if band == Text("5") then [Send("radio dot11a")]
    else if band == Text("2.4") then [Send("radio dot11g")]
    else []
  }

  /** The commands that configure one WLAN, given its 1-based id. */
  function WlanBlock(w: Wlan, id: nat): (r: seq<Cmd>)
    ensures |r| == 6 || |r| == 7
    ensures |r| == 7 <==> KnownBand(w.band)
    ensures r[0] == Send(WlanCreateText(w, id))
    ensures r[|r| - 5 .. |r| - 1] ==
              [ Send("no security wpa akm dot1x"),
                Send("security wpa psk set-key ascii 0 " + w.psk),
                Send("security wpa akm psk"),
                Send("no shutdown") ]
    ensures r[|r| - 1] == Send(ExitText)
  {
    [Send(WlanCreateText(w, id))]
    + RadioLine(w.band)
    + [ Send("no security wpa akm dot1x"),
        Send("security wpa psk set-key ascii 0 " + w.psk),
        Send("security wpa akm psk"),
        Send("no shutdown"),
        Send(ExitText) ]
  }

  /** How many of the WLANs name a band that selects a radio. */
  function KnownBandCount(ws: seq<Wlan>): (n: nat)
    ensures n <= |ws|
    decreases |ws|
  {
    if |ws| == 0 then 0 else (if KnownBand(ws[0].band) then 1 else 0) + KnownBandCount(ws[1..])
  }

  /** One WLAN block per configured WLAN, in input order, with ids 1, 2, ... */
  function WlanSection(ws: seq<Wlan>): seq<Cmd> {
    Numbered(ws, 1, WlanBlock)
  }

  // -------------------------------------------------------------- policies

  /** The eight commands of one WLAN's wireless policy. */
  function PolicyBlock(w: Wlan): (r: seq<Cmd>)
    ensures |r| == 8
    ensures r[0] == Send("wireless profile policy " + w.name)
    ensures r[1 .. 7] ==
              [ Send("no central association"),
                Send("no central dhcp"),
                Send("no central switching"),
                Send("http-tlv-caching"),
                Send("session-timeout 86400"),
                Send("no shutdown") ]
    ensures r[|r| - 1] == Send(ExitText)
  {
    [ Send("wireless profile policy " + w.name),
      Send("no central association"),
      Send("no central dhcp"),
      Send("no central switching"),
      Send("http-tlv-caching"),
      Send("session-timeout 86400"),
      Send("no shutdown"),
      Send(ExitText) ]
  }

  /** One policy block per configured WLAN, in input order. */
  function PolicySection(ws: seq<Wlan>): seq<Cmd> {
    Each(ws, PolicyBlock)
  }

  // ------------------------------------------------------------ policy tag

  /** Binds a WLAN to the policy of the same name. */
  function Binding(w: Wlan): seq<Cmd> {
    [Send("wlan " + w.name + " policy " + w.name)]
  }

  function TagSection(ws: seq<Wlan>): seq<Cmd> {
    [Send("wireless tag policy default-policy-tag")] + Each(ws, Binding) + [Send(ExitText)]
  }

  // ------------------------------------------------------------ encryption

  function EncryptionSection(ewc: EwcConfig): (r: seq<Cmd>)
    ensures |r| == EncryptionLen
  {
    [ Send("service password-encryption"),
      Send("password encryption aes"),
      Send("key config-key newpass " + ewc.password),
      Send("end") ]
  }

  // ----------------------------------------------------------------- radios

  /** `ap name <ap> dot11 <radio> <setting> <value>`, with the value already
      rendered as an f-string renders it. */
  function RadioText(ap: string, radio: string, setting: string, value: string): string {
    "ap name " + ap + " dot11 " + radio + " " + setting + " " + value
  }

  /** The branch is taken only for the string "true", not for a JSON boolean. */
  predicate UsesDualBand(ap: ApConfig) {
    ap.fraAp == Text("true")
  }

  function DualBandPair(ap: ApConfig): seq<Cmd> {
    [ Send(RadioText(ap.name, "dual-band", "channel", Render(ap.bandFra.channel))),
      Send(RadioText(ap.name, "dual-band", "txpower", Render(ap.bandFra.txPower))) ]
  }

  function Band24Pair(ap: ApConfig): seq<Cmd> {
    [ Send(RadioText(ap.name, "24ghz", "channel", Render(ap.band24.channel))),
      Send(RadioText(ap.name, "24ghz", "txpower", Render(ap.band24.txPower))) ]
  }

  function FiveGhzPair(ap: ApConfig): seq<Cmd> {
    [ Send(RadioText(SurveyApName, "5ghz", "channel", Render(ap.band5.channel))),
      Send(RadioText(SurveyApName, "5ghz", "txpower", Render(ap.band5.txPower))) ]
  }

  /** The channel and tx-power pair that `fra_ap` selects. */
  function TuningPair(ap: ApConfig): (r: seq<Cmd>)
    ensures |r| == 2
  {
    if UsesDualBand(ap) then DualBandPair(ap) else Band24Pair(ap)
  }

  function RadioSection(ap: ApConfig): (r: seq<Cmd>)
    ensures |r| == RadioLen
  {
    TuningPair(ap) + FiveGhzPair(ap)
  }

  // ------------------------------------------------------------------- tail

  /** The static-address command; its text carries its own carriage return. */
  function StaticIpText(ap: ApConfig): string {
    StaticIpLine(ap) + [CR]
  }

  function StaticIpLine(ap: ApConfig): string {
    "ap name " + ap.name + " static-ip ip-address " + ap.ip
      + " netmask " + ap.netmask + " gateway " + ap.gateway
  }

  function TailSection(ap: ApConfig): (r: seq<Cmd>)
    ensures |r| == TailLen
  {
    [SendWait(StaticIpText(ap), StaticIpWaitMs), Send(SaveText)]
  }

  // ----------------------------------------------------------------- script

  /** Every command `configure_APoS` sends, in order. */
  function Script(c: ProvisioningConfig): seq<Cmd> {
    Preamble(c)
    + WlanSection(c.wlans)
    + PolicySection(c.wlans)
    + TagSection(c.wlans)
    + EncryptionSection(c.ewc)
    + RadioSection(c.ap)
    + TailSection(c.ap)
  }

  /** Where each section starts in `Script(c)`. */
  function WlanBlockStart(ws: seq<Wlan>, k: nat): nat
    requires k <= |ws|
  {
    PreambleLen + |WlanSection(ws[..k])|
  }

  function PolicyStart(c: ProvisioningConfig): nat {
    PreambleLen + |WlanSection(c.wlans)|
  }

  function TagStart(c: ProvisioningConfig): nat {
    PolicyStart(c) + |PolicySection(c.wlans)|
  }

  function EncryptionStart(c: ProvisioningConfig): nat {
    TagStart(c) + |c.wlans| + 2
  }

  function RadioStart(c: ProvisioningConfig): nat {
    EncryptionStart(c) + EncryptionLen
  }
}

=== FILE: script_properties.dfy ===
/** Structural facts about the provisioning script: where each section sits,
    that WLAN and policy blocks appear whole and in input order, which radio
    pair is chosen, which commands wait longer than the default, and how the
    script ends.
 */
module ScriptProperties {
  import opened Options
  import opened Console
  import opened Config
  import opened Blocks
  import opened Provisioning
  import ApName
  import Decimal

  // ----------------------------------------------------------------- layout

  /** Six commands per WLAN, and one more for each WLAN with a radio line. */
  lemma {:induction false} WlanSectionLength(ws: seq<Wlan>, first: nat)
    ensures |Numbered(ws, first, WlanBlock)| == 6 * |ws| + KnownBandCount(ws)
    decreases |ws|
  {
    if |ws| > 0 {
      WlanSectionLength(ws[1..], first + 1);
      assert |WlanBlock(ws[0], first)| == 6 + (if KnownBand(ws[0].band) then 1 else 0);
    }
  }

  lemma PolicySectionLength(ws: seq<Wlan>)
    ensures |PolicySection(ws)| == 8 * |ws|
  {
    EachLength(ws, PolicyBlock, 8);
  }

  lemma TagSectionLength(ws: seq<Wlan>)
    ensures |Each(ws, Binding)| == |ws|
    ensures |TagSection(ws)| == |ws| + 2
  {
    EachLength(ws, Binding, 1);
  }

  /** The total number of commands: 27 fixed ones, 15 per WLAN, and one more
      per WLAN with a radio line; the radio and tail sections close it. */
  lemma ScriptLength(c: ProvisioningConfig)
    ensures |Script(c)| == 27 + 15 * |c.wlans| + KnownBandCount(c.wlans)
    ensures 27 + 15 * |c.wlans| <= |Script(c)| <= 27 + 16 * |c.wlans|
    ensures RadioStart(c) + RadioLen + TailLen == |Script(c)|
  {
    WlanSectionLength(c.wlans, 1);
    PolicySectionLength(c.wlans);
    TagSectionLength(c.wlans);
  }

  // ------------------------------------------------------- section offsets

  // Where each section sits: `Script(c)[start .. start + |section|]` is the
  // section. The facts about the script below combine one of these with a
  // fact about the section on its own.

  lemma PreambleAt(c: ProvisioningConfig)
    ensures PreambleLen + TailLen < |Script(c)|
    ensures Script(c)[0 .. PreambleLen] == Preamble(c)
  {
    var ws := c.wlans;
    var rest := WlanSection(ws) + PolicySection(ws) + TagSection(ws) + EncryptionSection(c.ewc) + RadioSection(c.ap) + TailSection(c.ap);
    Around(Preamble(c), WlanSection(ws), PolicySection(ws), TagSection(ws), EncryptionSection(c.ewc), RadioSection(c.ap), TailSection(c.ap));
    SliceMiddle([], Preamble(c), rest);
  }

  lemma WlanSectionAt(c: ProvisioningConfig)
    ensures PolicyStart(c) <= |Script(c)|
    ensures Script(c)[PreambleLen .. PreambleLen + |WlanSection(c.wlans)|] == WlanSection(c.wlans)
  {
    var ws := c.wlans;
    var rest := PolicySection(ws) + TagSection(ws) + EncryptionSection(c.ewc) + RadioSection(c.ap) + TailSection(c.ap);
    Around(Preamble(c), WlanSection(ws), PolicySection(ws), TagSection(ws), EncryptionSection(c.ewc), RadioSection(c.ap), TailSection(c.ap));
    SliceMiddle(Preamble(c), WlanSection(ws), rest);
  }

  lemma PolicySectionAt(c: ProvisioningConfig)
    ensures TagStart(c) <= |Script(c)|
    ensures Script(c)[PolicyStart(c) .. PolicyStart(c) + |PolicySection(c.wlans)|] == PolicySection(c.wlans)
  {
    var ws := c.wlans;
    var pre := Preamble(c) + WlanSection(ws);
    var rest := TagSection(ws) + EncryptionSection(c.ewc) + RadioSection(c.ap) + TailSection(c.ap);
    Around(Preamble(c), WlanSection(ws), PolicySection(ws), TagSection(ws), EncryptionSection(c.ewc), RadioSection(c.ap), TailSection(c.ap));
    PolicySectionLength(ws);
    SliceMiddle(pre, PolicySection(ws), rest);
  }

  lemma TagSectionAt(c: ProvisioningConfig)
    ensures TagStart(c) + |TagSection(c.wlans)| <= |Script(c)|
    ensures Script(c)[TagStart(c) .. TagStart(c) + |TagSection(c.wlans)|] == TagSection(c.wlans)
  {
    var ws := c.wlans;
    var pre := Preamble(c) + WlanSection(ws) + PolicySection(ws);
    var rest := EncryptionSection(c.ewc) + RadioSection(c.ap) + TailSection(c.ap);
    Around(Preamble(c), WlanSection(ws), PolicySection(ws), TagSection(ws), EncryptionSection(c.ewc), RadioSection(c.ap), TailSection(c.ap));
    PolicySectionLength(ws);
    SliceMiddle(pre, TagSection(ws), rest);
  }

  lemma EncryptionSectionAt(c: ProvisioningConfig)
    ensures EncryptionStart(c) + EncryptionLen <= |Script(c)|
    ensures Script(c)[EncryptionStart(c) .. EncryptionStart(c) + EncryptionLen] == EncryptionSection(c.ewc)
  {
    var ws := c.wlans;
    var pre := Preamble(c) + WlanSection(ws) + PolicySection(ws) + TagSection(ws);
    var rest := RadioSection(c.ap) + TailSection(c.ap);
    Around(Preamble(c), WlanSection(ws), PolicySection(ws), TagSection(ws), EncryptionSection(c.ewc), RadioSection(c.ap), TailSection(c.ap));
    PolicySectionLength(ws);
    TagSectionLength(ws);
    SliceMiddle(pre, EncryptionSection(c.ewc), rest);
  }

  lemma RadioSectionAt(c: ProvisioningConfig)
    ensures RadioStart(c) + RadioLen + TailLen == |Script(c)|
    ensures Script(c)[RadioStart(c) .. RadioStart(c) + RadioLen] == RadioSection(c.ap)
  {
    var ws := c.wlans;
    var pre := Preamble(c) + WlanSection(ws) + PolicySection(ws) + TagSection(ws) + EncryptionSection(c.ewc);
    Around(Preamble(c), WlanSection(ws), PolicySection(ws), TagSection(ws), EncryptionSection(c.ewc), RadioSection(c.ap), TailSection(c.ap));
    PolicySectionLength(ws);
    TagSectionLength(ws);
    SliceMiddle(pre, RadioSection(c.ap), TailSection(c.ap));
  }

  lemma TailSectionAt(c: ProvisioningConfig)
    ensures TailLen <= |Script(c)|
    ensures Script(c)[|Script(c)| - TailLen .. |Script(c)|] == TailSection(c.ap)
  {
    var ws := c.wlans;
    var pre := Preamble(c) + WlanSection(ws) + PolicySection(ws) + TagSection(ws) + EncryptionSection(c.ewc) + RadioSection(c.ap);
    Around(Preamble(c), WlanSection(ws), PolicySection(ws), TagSection(ws), EncryptionSection(c.ewc), RadioSection(c.ap), TailSection(c.ap));
    SliceMiddle(pre, TailSection(c.ap), []);
  }

  /** The controller-side commands between the preamble and the radio section. */
  function Body(c: ProvisioningConfig): seq<Cmd> {
    WlanSection(c.wlans) + PolicySection(c.wlans) + TagSection(c.wlans) + EncryptionSection(c.ewc)
  }

  /** The commands between the preamble and the tail. */
  function Middle(c: ProvisioningConfig): seq<Cmd> {
    Body(c) + RadioSection(c.ap)
  }

  lemma MiddleAt(c: ProvisioningConfig)
    ensures PreambleLen + |Middle(c)| + TailLen == |Script(c)|
    ensures Script(c)[PreambleLen .. PreambleLen + |Middle(c)|] == Middle(c)
  {
    var ws := c.wlans;
    Around(Preamble(c), WlanSection(ws), PolicySection(ws), TagSection(ws), EncryptionSection(c.ewc), RadioSection(c.ap), TailSection(c.ap));
    SliceMiddle(Preamble(c), Middle(c), TailSection(c.ap));
  }

  // ------------------------------------------------------------ WLAN blocks

  /** Within the WLAN section, the k-th WLAN's block follows the blocks of
      the WLANs before it. */
  lemma WlanBlockInSection(ws: seq<Wlan>, k: nat)
    requires k < |ws|
    ensures var at := |WlanSection(ws[..k])|;
            var b := WlanBlock(ws[k], k + 1);
            && |WlanSection(ws[..k + 1])| == at + |b| <= |WlanSection(ws)|
            && WlanSection(ws)[at .. at + |b|] == b
  {
    var before := WlanSection(ws[..k]);
    var b := WlanBlock(ws[k], k + 1);
    var after := Numbered(ws[k + 1..], k + 2, WlanBlock);
    NumberedSplit(ws, 1, WlanBlock, k);
    NumberedSnoc(ws, WlanBlock, k);
    SliceMiddle(before, b, after);
  }

  /** The next WLAN's block starts right after the k-th one, and all of them
      end before the policy blocks start. */
  lemma WlanBlockStarts(c: ProvisioningConfig, k: nat)
    requires k < |c.wlans|
    ensures WlanBlockStart(c.wlans, k + 1) == WlanBlockStart(c.wlans, k) + |WlanBlock(c.wlans[k], k + 1)|
    ensures WlanBlockStart(c.wlans, k + 1) <= PolicyStart(c)
  {
    WlanBlockInSection(c.wlans, k);
  }

  // The facts about the script are each proved in two steps: first for any
  // command sequence `s` that holds the relevant section at its offset in the
  // script (a `...Placed` lemma), then for `Script(c)` itself, which holds
  // every section at its offset by the lemmas above.

  /** In any command sequence holding the WLAN section right after the
      preamble, the k-th WLAN's block sits at `WlanBlockStart(c.wlans, k)`. */
  lemma WlanBlockPlaced(c: ProvisioningConfig, s: seq<Cmd>, k: nat)
    requires k < |c.wlans|
    requires PolicyStart(c) <= |s|
    requires s[PreambleLen .. PreambleLen + |WlanSection(c.wlans)|] == WlanSection(c.wlans)
    ensures var at := WlanBlockStart(c.wlans, k);
            var b := WlanBlock(c.wlans[k], k + 1);
            && at + |b| <= |s|
            && s[at .. at + |b|] == b
            && s[at] == Send(WlanCreateText(c.wlans[k], k + 1))
  {
    var ws := c.wlans;
    var b := WlanBlock(ws[k], k + 1);
    WlanBlockInSection(ws, k);
    SliceWithin(s, WlanSection(ws), PreambleLen, |WlanSection(ws[..k])|, b);
    SliceAt(s, b, WlanBlockStart(ws, k), 0);
  }

  /** The k-th WLAN in input order (0-based) occupies one contiguous block of
      the script; the block starts with `wlan <name> k+1 "<ssid>"` and ends
      with `exit` (the contract of `WlanBlock`). */
  lemma WlanBlockInScript(c: ProvisioningConfig, k: nat)
    requires k < |c.wlans|
    ensures var at := WlanBlockStart(c.wlans, k);
            var b := WlanBlock(c.wlans[k], k + 1);
            && at + |b| <= |Script(c)|
            && Script(c)[at .. at + |b|] == b
  {
    WlanSectionAt(c);
    WlanBlockPlaced(c, Script(c), k);
  }

  /** A WLAN block placed in `s` sets that WLAN's PSK four commands before
      its `exit`. */
  lemma WlanPskPlaced(s: seq<Cmd>, w: Wlan, id: nat, at: nat)
    requires at + |WlanBlock(w, id)| <= |s| && s[at .. at + |WlanBlock(w, id)|] == WlanBlock(w, id)
    ensures s[at + |WlanBlock(w, id)| - 4] == Send("security wpa psk set-key ascii 0 " + w.psk)
    ensures s[at + |WlanBlock(w, id)| - 1] == Send(ExitText)
  {
    var b := WlanBlock(w, id);
    SliceAt(s, b, at, |b| - 4);
    SliceAt(s, b, at, |b| - 1);
    assert b[|b| - 4] == b[|b| - 5 .. |b| - 1][1];
  }

  /** The k-th WLAN's block in the script sets that WLAN's own PSK, four
      commands before the block's `exit`. */
  lemma WlanPskInScript(c: ProvisioningConfig, k: nat)
    requires k < |c.wlans|
    ensures var at := WlanBlockStart(c.wlans, k);
            var b := WlanBlock(c.wlans[k], k + 1);
            && at + |b| <= |Script(c)|
            && Script(c)[at + |b| - 4] == Send("security wpa psk set-key ascii 0 " + c.wlans[k].psk)
            && Script(c)[at + |b| - 1] == Send(ExitText)
  {
    WlanBlockInScript(c, k);
    WlanPskPlaced(Script(c), c.wlans[k], k + 1, WlanBlockStart(c.wlans, k));
  }

  /** The id a WLAN's `wlan` command carries reads back as the id it was given. */
  lemma WlanIdRoundTrip(w: Wlan, id: nat)
    ensures WlanIdOf(w, WlanCreateText(w, id)) == Some(id)
  {
    var head := "wlan " + w.name + " ";
    var digits := Decimal.FromNat(id);
    var tail := " \"" + w.ssid + "\"";
    var text := WlanCreateText(w, id);
    assert text == head + (digits + tail);
    assert text[..|head|] == head;
    assert text[|head|..] == digits + tail;
    assert !Decimal.IsDigit(tail[0]);
    Decimal.LeadingDigitsStop(digits, tail);
    Decimal.RoundTrip(id);
  }

  /** Whatever the WLANs contain, the k-th one (0-based) is created with id k+1. */
  lemma WlanIds(c: ProvisioningConfig, k: nat)
    requires k < |c.wlans|
    ensures WlanBlockStart(c.wlans, k) < |Script(c)|
    ensures Script(c)[WlanBlockStart(c.wlans, k)] == Send(WlanCreateText(c.wlans[k], k + 1))
    ensures WlanIdOf(c.wlans[k], Script(c)[WlanBlockStart(c.wlans, k)].text) == Some(k + 1)
  {
    WlanSectionAt(c);
    WlanBlockPlaced(c, Script(c), k);
    WlanIdRoundTrip(c.wlans[k], k + 1);
  }

  predicate IsRadioLine(cmd: Cmd) {
    cmd.text == "radio dot11a" || cmd.text == "radio dot11g"
  }

  /** The radio line of a WLAN block: `radio dot11a` for the band "5",
      `radio dot11g` for "2.4", and none for any other band. */
  lemma BandLine(w: Wlan, id: nat)
    ensures w.band == Text("5") ==> WlanBlock(w, id)[1] == Send("radio dot11a")
    ensures w.band == Text("2.4") ==> WlanBlock(w, id)[1] == Send("radio dot11g")
    ensures forall j :: 0 <= j < |WlanBlock(w, id)| ==> (IsRadioLine(WlanBlock(w, id)[j]) <==> j == 1 && KnownBand(w.band))
  {
    var b := WlanBlock(w, id);
    var r := |RadioLine(w.band)|;
    assert b[0].text == "wlan " + (w.name + " " + Decimal.FromNat(id) + " \"" + w.ssid + "\"");
    assert b[0].text[0] == 'w';
    assert b[1 + r].text[0] == 'n';
    assert b[2 + r].text == "security wpa psk set-key ascii 0 " + w.psk;
    assert b[2 + r].text[0] == 's';
    assert b[3 + r].text[0] == 's';
    assert b[4 + r].text[0] == 'n';
    assert b[5 + r].text[0] == 'e';
  }

  // ---------------------------------------------------------- policy blocks

  /** Within the policy section, the k-th WLAN's policy block follows the
      blocks of the WLANs before it. */
  lemma PolicyBlockInSection(ws: seq<Wlan>, k: nat)
    requires k < |ws|
    ensures var at := 8 * k;
            var b := PolicyBlock(ws[k]);
            && at + |b| <= |PolicySection(ws)|
            && PolicySection(ws)[at .. at + |b|] == b
  {
    var before := PolicySection(ws[..k]);
    var b := PolicyBlock(ws[k]);
    var after := PolicySection(ws[k + 1..]);
    EachSplit(ws, PolicyBlock, k);
    PolicySectionLength(ws[..k]);
    PolicySectionLength(ws);
    SliceMiddle(before, b, after);
  }

  /** In any command sequence holding the policy section at `PolicyStart(c)`,
      the k-th WLAN's policy block sits 8 * k commands after it. */
  lemma PolicyBlockPlaced(c: ProvisioningConfig, s: seq<Cmd>, k: nat)
    requires k < |c.wlans|
    requires TagStart(c) <= |s|
    requires s[PolicyStart(c) .. PolicyStart(c) + |PolicySection(c.wlans)|] == PolicySection(c.wlans)
    ensures var at := PolicyStart(c) + 8 * k;
            var b := PolicyBlock(c.wlans[k]);
            && at + |b| <= |s|
            && s[at .. at + |b|] == b
  {
    PolicyBlockInSection(c.wlans, k);
    SliceWithin(s, PolicySection(c.wlans), PolicyStart(c), 8 * k, PolicyBlock(c.wlans[k]));
  }

  /** Each WLAN gets one whole policy block, in input order; the block begins
      with `wireless profile policy <name>` and ends with `exit` (the contract
      of `PolicyBlock`). */
  lemma PolicyBlockInScript(c: ProvisioningConfig, k: nat)
    requires k < |c.wlans|
    ensures var at := PolicyStart(c) + 8 * k;
            var b := PolicyBlock(c.wlans[k]);
            && at + |b| <= |Script(c)|
            && Script(c)[at .. at + |b|] == b
  {
    PolicySectionAt(c);
    PolicyBlockPlaced(c, Script(c), k);
  }

  // ------------------------------------------------------------- policy tag

  lemma {:induction false} BindingsAt(ws: seq<Wlan>, k: nat)
    requires k < |ws|
    ensures |Each(ws, Binding)| == |ws|
    ensures Each(ws, Binding)[k] == Send("wlan " + ws[k].name + " policy " + ws[k].name)
  {
    EachLength(ws, Binding, 1);
    EachSplit(ws, Binding, k);
    EachLength(ws[..k], Binding, 1);
  }

  /** The tag section enters `wireless tag policy default-policy-tag`, binds
      every WLAN to its same-named policy in input order, and exits. */
  lemma TagSectionShape(ws: seq<Wlan>)
    ensures var t := TagSection(ws);
            && |t| == |ws| + 2
            && t[0] == Send("wireless tag policy default-policy-tag")
            && (forall k :: 0 <= k < |ws| ==> t[1 + k] == Send("wlan " + ws[k].name + " policy " + ws[k].name))
            && t[|ws| + 1] == Send(ExitText)
  {
    var t := TagSection(ws);
    TagSectionLength(ws);
    forall k | 0 <= k < |ws|
      ensures t[1 + k] == Send("wlan " + ws[k].name + " policy " + ws[k].name)
    {
      BindingsAt(ws, k);
      assert t[1 + k] == Each(ws, Binding)[k];
    }
  }

  lemma TagSectionPlaced(c: ProvisioningConfig, s: seq<Cmd>)
    requires TagStart(c) + |TagSection(c.wlans)| <= |s|
    requires s[TagStart(c) .. TagStart(c) + |TagSection(c.wlans)|] == TagSection(c.wlans)
    ensures var at := TagStart(c);
            var ws := c.wlans;
            && at + |ws| + 2 == EncryptionStart(c) <= |s|
            && s[at] == Send("wireless tag policy default-policy-tag")
            && (forall k :: 0 <= k < |ws| ==> s[at + 1 + k] == Send("wlan " + ws[k].name + " policy " + ws[k].name))
            && s[at + |ws| + 1] == Send(ExitText)
  {
    var ws := c.wlans;
    var at := TagStart(c);
    var t := TagSection(ws);
    TagSectionShape(ws);
    SliceAt(s, t, at, 0);
    SliceAt(s, t, at, |ws| + 1);
    forall k | 0 <= k < |ws|
      ensures s[at + 1 + k] == Send("wlan " + ws[k].name + " policy " + ws[k].name)
    {
      SliceAt(s, t, at, 1 + k);
    }
  }

  /** After the policy blocks the script enters the default policy tag, binds
      every WLAN to its same-named policy in input order, and exits, right
      before the encryption commands. */
  lemma TagSectionInScript(c: ProvisioningConfig)
    ensures var s := Script(c);
            var at := TagStart(c);
            var ws := c.wlans;
            && at + |ws| + 2 == EncryptionStart(c) <= |s|
            && s[at] == Send("wireless tag policy default-policy-tag")
            && (forall k :: 0 <= k < |ws| ==> s[at + 1 + k] == Send("wlan " + ws[k].name + " policy " + ws[k].name))
            && s[at + |ws| + 1] == Send(ExitText)
  {
    TagSectionAt(c);
    TagSectionPlaced(c, Script(c));
  }

  // ------------------------------------------------------------- encryption

  lemma EncryptionPlaced(c: ProvisioningConfig, s: seq<Cmd>)
    requires EncryptionStart(c) + EncryptionLen <= |s|
    requires s[EncryptionStart(c) .. EncryptionStart(c) + EncryptionLen] == EncryptionSection(c.ewc)
    ensures s[EncryptionStart(c)] == Send("service password-encryption")
    ensures s[EncryptionStart(c) + 1] == Send("password encryption aes")
    ensures s[EncryptionStart(c) + 2] == Send("key config-key newpass " + c.ewc.password)
    ensures s[EncryptionStart(c) + 3] == Send("end")
  {
    var at := EncryptionStart(c);
    forall i | 0 <= i < EncryptionLen ensures s[at + i] == EncryptionSection(c.ewc)[i] {
      SliceAt(s, EncryptionSection(c.ewc), at, i);
    }
    assert s[at] == s[at + 0];
  }

  /** Password encryption is turned on with AES, the encryption key is set
      from the controller password, and configuration mode is left with `end`
      right before the radio commands. */
  lemma EncryptionInScript(c: ProvisioningConfig)
    ensures EncryptionStart(c) + EncryptionLen == RadioStart(c) <= |Script(c)|
    ensures Script(c)[EncryptionStart(c)] == Send("service password-encryption")
    ensures Script(c)[EncryptionStart(c) + 1] == Send("password encryption aes")
    ensures Script(c)[EncryptionStart(c) + 2] == Send("key config-key newpass " + c.ewc.password)
    ensures Script(c)[EncryptionStart(c) + 3] == Send("end")
  {
    EncryptionSectionAt(c);
    EncryptionPlaced(c, Script(c));
  }

  // ----------------------------------------------------------------- radios

  /** Two `ap name <ap> dot11 <radio> ...` commands whose radios start with
      different characters differ. */
  lemma RadioTextsDiffer(ap: string, r1: string, s1: string, v1: string, r2: string, s2: string, v2: string)
    requires |r1| > 0 && |r2| > 0 && r1[0] != r2[0]
    ensures RadioText(ap, r1, s1, v1) != RadioText(ap, r2, s2, v2)
  {
    var p := "ap name " + ap + " dot11 ";
    assert RadioText(ap, r1, s1, v1) == p + (r1 + " " + s1 + " " + v1);
    assert RadioText(ap, r2, s2, v2) == p + (r2 + " " + s2 + " " + v2);
    assert RadioText(ap, r1, s1, v1)[|p|] == r1[0];
    assert RadioText(ap, r2, s2, v2)[|p|] == r2[0];
  }

  /** The dual-band and the 2.4 GHz commands never coincide, whatever the settings. */
  lemma RadioPairsDiffer(ap: ApConfig)
    ensures DualBandPair(ap)[0] != Band24Pair(ap)[0]
    ensures DualBandPair(ap)[1] != Band24Pair(ap)[1]
  {
    assert "dual-band"[0] != "24ghz"[0];
    RadioTextsDiffer(ap.name, "dual-band", "channel", Render(ap.bandFra.channel), "24ghz", "channel", Render(ap.band24.channel));
    RadioTextsDiffer(ap.name, "dual-band", "txpower", Render(ap.bandFra.txPower), "24ghz", "txpower", Render(ap.band24.txPower));
  }

  /** The radio section on its own: the tuning pair, then the 5 GHz pair. */
  lemma RadioSectionShape(ap: ApConfig)
    ensures RadioSection(ap)[..2] == TuningPair(ap)
    ensures RadioSection(ap)[2..4] == FiveGhzPair(ap)
  {
    Halves(TuningPair(ap), FiveGhzPair(ap));
  }

  /** `fra_ap` being the string "true" is exactly what selects the dual-band
      pair; anything else selects the 2.4 GHz pair, and the two never coincide. */
  lemma TuningExclusive(ap: ApConfig)
    ensures UsesDualBand(ap) <==> TuningPair(ap) == DualBandPair(ap)
    ensures !UsesDualBand(ap) <==> TuningPair(ap) == Band24Pair(ap)
  {
    RadioPairsDiffer(ap);
  }

  lemma RadioPlaced(c: ProvisioningConfig, s: seq<Cmd>)
    requires RadioStart(c) + RadioLen <= |s|
    requires s[RadioStart(c) .. RadioStart(c) + RadioLen] == RadioSection(c.ap)
    ensures s[RadioStart(c) .. RadioStart(c) + 2] == TuningPair(c.ap)
    ensures s[RadioStart(c) + 2 .. RadioStart(c) + 4] == FiveGhzPair(c.ap)
  {
    var r := RadioSection(c.ap);
    RadioSectionShape(c.ap);
    SlicePrefix(s, r, RadioStart(c), 2);
    SliceOfSlice(s, r, RadioStart(c), 2, 4);
  }

  /** Radio tuning follows `fra_ap`: the string "true" selects the dual-band
      pair and anything else the 2.4 GHz pair. Only the radio commands and the
      tail come after it. */
  lemma RadioSelection(c: ProvisioningConfig)
    ensures var s := Script(c);
            var at := RadioStart(c);
            && at == |s| - RadioLen - TailLen
            && s[at .. at + 2] == TuningPair(c.ap)
            && (UsesDualBand(c.ap) ==> s[at .. at + 2] == DualBandPair(c.ap))
            && (!UsesDualBand(c.ap) ==> s[at .. at + 2] == Band24Pair(c.ap))
  {
    RadioSectionAt(c);
    RadioPlaced(c, Script(c));
  }

  /** The two 5 GHz commands follow the tuning pair, whichever it is. */
  lemma FiveGhzInScript(c: ProvisioningConfig)
    ensures var at := RadioStart(c);
            && at + RadioLen <= |Script(c)|
            && Script(c)[at + 2 .. at + 4] == FiveGhzPair(c.ap)
  {
    RadioSectionAt(c);
    RadioPlaced(c, Script(c));
  }

  /** The script sends exactly one of the two tuning pairs in the tuning slot:
      the dual-band pair exactly when `fra_ap` is the string "true". */
  lemma RadioExclusive(c: ProvisioningConfig)
    ensures var s := Script(c);
            var at := RadioStart(c);
            && at + 2 <= |s|
            && (UsesDualBand(c.ap) <==> s[at .. at + 2] == DualBandPair(c.ap))
            && (!UsesDualBand(c.ap) <==> s[at .. at + 2] == Band24Pair(c.ap))
  {
    RadioSectionAt(c);
    RadioPlaced(c, Script(c));
    TuningExclusive(c.ap);
  }

  /** The 5 GHz commands address the AP named "Survey-AP", whatever the
      configured AP name is. */
  lemma FiveGhzIgnoresApName(ap: ApConfig, name: string)
    ensures FiveGhzPair(ap.(name := name)) == FiveGhzPair(ap)
    ensures FiveGhzPair(ap)[0] == Send(RadioText(SurveyApName, "5ghz", "channel", Render(ap.band5.channel)))
    ensures FiveGhzPair(ap)[1] == Send(RadioText(SurveyApName, "5ghz", "txpower", Render(ap.band5.txPower)))
  {
  }

  // ------------------------------------------------------------------- tail

  lemma TailPlaced(c: ProvisioningConfig, s: seq<Cmd>)
    requires TailLen <= |s|
    requires s[|s| - TailLen .. |s|] == TailSection(c.ap)
    ensures s[|s| - 1] == Send(SaveText)
    ensures s[|s| - 2] == SendWait(StaticIpLine(c.ap) + [CR], StaticIpWaitMs)
  {
    SliceAt(s, TailSection(c.ap), |s| - TailLen, 0);
    SliceAt(s, TailSection(c.ap), |s| - TailLen, 1);
  }

  /** The script ends with the AP's static address (sent with a 1 s settle
      time) and then `write memory`. */
  lemma ScriptTail(c: ProvisioningConfig)
    ensures var s := Script(c);
            && |s| >= TailLen
            && s[|s| - 1] == Send(SaveText)
            && s[|s| - 2] == SendWait(StaticIpLine(c.ap) + [CR], StaticIpWaitMs)
  {
    TailSectionAt(c);
    TailPlaced(c, Script(c));
  }

  /** The static-address text already ends in a carriage return, so its wire
      text ends in two, and a console receives an extra empty line after it. */
  lemma StaticIpWire(ap: ApConfig)
    ensures var w := Wire(SendWait(StaticIpText(ap), StaticIpWaitMs));
            && |w| >= 2 && w[|w| - 2] == CR && w[|w| - 1] == CR
            && (CrFree(StaticIpLine(ap)) ==> Deframe(w) == [StaticIpLine(ap), []])
  {
    if CrFree(StaticIpLine(ap)) {
      DeframeTrailingCr(StaticIpLine(ap));
    }
  }

  // ------------------------------------------------------------------ waits

  /** In the preamble only the second wake line (1 s), `ip address` (3 s),
      `username` (1 s) and `mgmtuser` (1 s) override the default. */
  lemma PreambleWaits(c: ProvisioningConfig)
    ensures var p := Preamble(c);
            && p[1].waitMs == 1000
            && p[11].waitMs == 3000
            && p[12].waitMs == 1000
            && p[14].waitMs == 1000
            && forall i :: 0 <= i < |p| ==> (p[i].waitMs != DefaultWaitMs <==> i == 1 || i == 11 || i == 12 || i == 14)
  {
  }

  lemma WlanSectionPaced(ws: seq<Wlan>)
    ensures DefaultPaced(WlanSection(ws))
  {
    forall j | 0 <= j < |ws| ensures DefaultPaced(WlanBlock(ws[j], 1 + j)) {
      var b := WlanBlock(ws[j], 1 + j);
      assert forall i :: 0 <= i < |b| ==> b[i].waitMs == DefaultWaitMs;
    }
    NumberedEvery(ws, 1, WlanBlock, HasDefaultWait);
  }

  lemma PolicySectionPaced(ws: seq<Wlan>)
    ensures DefaultPaced(PolicySection(ws))
  {
    EachEvery(ws, PolicyBlock, HasDefaultWait);
  }

  lemma TagSectionPaced(ws: seq<Wlan>)
    ensures DefaultPaced(TagSection(ws))
  {
    EachEvery(ws, Binding, HasDefaultWait);
    var header := [Send("wireless tag policy default-policy-tag")];
    EveryConcat(header, Each(ws, Binding), HasDefaultWait);
    EveryConcat(header + Each(ws, Binding), [Send(ExitText)], HasDefaultWait);
  }

  lemma EncryptionPaced(ewc: EwcConfig)
    ensures DefaultPaced(EncryptionSection(ewc))
  {
  }

  lemma RadioPaced(ap: ApConfig)
    ensures DefaultPaced(RadioSection(ap))
  {
  }

  /** Every command between the preamble and the static-address command uses
      the default settle time. */
  lemma MiddlePaced(c: ProvisioningConfig)
    ensures DefaultPaced(Middle(c))
  {
    var ws := c.wlans;
    WlanSectionPaced(ws);
    PolicySectionPaced(ws);
    TagSectionPaced(ws);
    EncryptionPaced(c.ewc);
    RadioPaced(c.ap);
    EveryConcat4(WlanSection(ws), PolicySection(ws), TagSection(ws), EncryptionSection(c.ewc), HasDefaultWait);
    EveryConcat(Body(c), RadioSection(c.ap), HasDefaultWait);
  }

  lemma WaitsPlaced(c: ProvisioningConfig, s: seq<Cmd>)
    requires PreambleLen + |Middle(c)| + TailLen == |s|
    requires s[0 .. PreambleLen] == Preamble(c)
    requires s[PreambleLen .. PreambleLen + |Middle(c)|] == Middle(c)
    requires s[|s| - TailLen .. |s|] == TailSection(c.ap)
    ensures s[1].waitMs == 1000
    ensures s[11].waitMs == 3000
    ensures s[12].waitMs == 1000
    ensures s[14].waitMs == 1000
    ensures s[|s| - 2].waitMs == 1000
    ensures forall i :: 0 <= i < |s| ==>
              (s[i].waitMs != DefaultWaitMs <==> i == 1 || i == 11 || i == 12 || i == 14 || i == |s| - 2)
  {
    var p := Preamble(c);
    var t := TailSection(c.ap);
    MiddlePaced(c);
    PreambleWaits(c);
    PacedMiddle(s, p, Middle(c), t);
    assert t[0].waitMs == 1000 && t[1].waitMs == DefaultWaitMs;
  }

  /** Exactly five commands override the 0.5 s default: the second wake line
      (1 s), the controller's `ip address` (3 s), `username` (1 s),
      `mgmtuser` (1 s) and the AP's `static-ip` (1 s). */
  lemma Waits(c: ProvisioningConfig)
    ensures var s := Script(c);
            && |s| > PreambleLen + TailLen
            && s[1].waitMs == 1000
            && s[11].waitMs == 3000
            && s[12].waitMs == 1000
            && s[14].waitMs == 1000
            && s[|s| - 2].waitMs == 1000
            && forall i :: 0 <= i < |s| ==>
                 (s[i].waitMs != DefaultWaitMs <==> i == 1 || i == 11 || i == 12 || i == 14 || i == |s| - 2)
  {
    PreambleAt(c);
    MiddleAt(c);
    TailSectionAt(c);
    WaitsPlaced(c, Script(c));
  }

  // --------------------------------------------------------------- preamble

  /** The preamble on its own: the AP is renamed from its factory name, which
      is derived from the MAC and reads back to it; configuration mode is
      entered and the controller gets its hostname. */
  lemma PreambleShape(c: ProvisioningConfig)
    ensures var p := Preamble(c);
            && p[2] == Send("enable")
            && p[3] == Send(RenameText(c.ap))
            && RenameText(c.ap) == "ap name " + ApName.DefaultName(c.ap.mac) + " name " + c.ap.name
            && (ApName.Dot !in c.ap.mac ==> ApName.MacOf(ApName.DefaultName(c.ap.mac)) == Some(c.ap.mac))
            && p[4] == Send("conf t")
            && p[9] == Send("hostname " + c.ewc.name)
  {
    if ApName.Dot !in c.ap.mac {
      ApName.DefaultNameRoundTrip(c.ap.mac);
    }
  }

  /** In any command list starting with the preamble, its fifteen commands
      sit at positions 0 to 14. */
  lemma PreamblePlaced(c: ProvisioningConfig, s: seq<Cmd>)
    requires PreambleLen <= |s|
    requires s[0 .. PreambleLen] == Preamble(c)
    ensures var u := c.ewc.username;
            var p := c.ewc.password;
            && s[0] == Send("")
            && s[1] == SendWait("", WakeWaitMs)
            && s[2] == Send("enable")
            && s[3] == Send(RenameText(c.ap))
            && s[4] == Send("conf t")
            && s[5] == Send("line console 0")
            && s[6] == Send("logging sync")
            && s[7] == Send(ExitText)
            && s[8] == Send("netconf-yang")
            && s[9] == Send("hostname " + c.ewc.name)
            && s[10] == Send("interface gigabitEthernet 0")
            && s[11] == SendWait("ip address " + c.ewc.ip + " 255.255.255.0", InterfaceIpWaitMs)
            && s[12] == SendWait("username " + u + " privilege 15 password " + p, CredentialWaitMs)
            && s[13] == Send("ap profile default-ap-profile")
            && s[14] == SendWait("mgmtuser username " + u + " password 0 " + p + " secret 0 " + p, CredentialWaitMs)
  {
    forall i | 0 <= i < PreambleLen ensures s[i] == Preamble(c)[i] {
      SliceAt(s, Preamble(c), 0, i);
    }
  }

  /** The script opens with the preamble: the two wake lines (the second
      with a 1 s settle time), `enable`, the rename from the factory name,
      `conf t`, console logging, `netconf-yang`, the controller's hostname
      and address (3 s), the admin user (1 s), the AP profile and its
      management user (1 s). */
  lemma PreambleInScript(c: ProvisioningConfig)
    ensures var s := Script(c);
            var u := c.ewc.username;
            var p := c.ewc.password;
            && |s| > PreambleLen
            && s[0] == Send("")
            && s[1] == SendWait("", WakeWaitMs)
            && s[2] == Send("enable")
            && s[3] == Send(RenameText(c.ap))
            && s[4] == Send("conf t")
            && s[5] == Send("line console 0")
            && s[6] == Send("logging sync")
            && s[7] == Send(ExitText)
            && s[8] == Send("netconf-yang")
            && s[9] == Send("hostname " + c.ewc.name)
            && s[10] == Send("interface gigabitEthernet 0")
            && s[11] == SendWait("ip address " + c.ewc.ip + " 255.255.255.0", InterfaceIpWaitMs)
            && s[12] == SendWait("username " + u + " privilege 15 password " + p, CredentialWaitMs)
            && s[13] == Send("ap profile default-ap-profile")
            && s[14] == SendWait("mgmtuser username " + u + " password 0 " + p + " secret 0 " + p, CredentialWaitMs)
  {
    PreambleAt(c);
    PreamblePlaced(c, Script(c));
  }
}

=== FILE: tuning_slot.dfy ===
/** Where the radio tuning commands can appear in the script.

    The tuning pair (dual-band or 2.4 GHz channel and tx-power) is sent in its
    slot after the encryption section. Every other command either does not
    start with `ap name ` at all, or starts with `ap name <word> ` where the
    word and what follows it differ from a tuning command. That argument needs
    the words to be single words: when the configured AP name or the MAC
    contains a space, a command's text can spell a tuning command with the
    words split differently, and the 5 GHz commands really do spell one for
    suitable settings (`SpacedNameCollision`).
 */
module TuningSlot {
  import opened Console
  import opened Config
  import opened Blocks
  import opened Provisioning
  import opened ScriptProperties
  import ApName
  import Decimal

  const ApNameHead: string := "ap name "

  /** Commands addressed to one access point by name start with `ap name `. */
  predicate AddressesAp(t: string) {
    |ApNameHead| <= |t| && t[..|ApNameHead|] == ApNameHead
  }

  predicate Unaddressed(cmd: Cmd) {
    !AddressesAp(cmd.text)
  }

  /** The command's text is the text of none of the dual-band and 2.4 GHz
      commands, whatever wait it is sent with: the console sees only text. */
  predicate NotTuning(ap: ApConfig, cmd: Cmd) {
    cmd.text !in Texts(DualBandPair(ap)) && cmd.text !in Texts(Band24Pair(ap))
  }

  predicate NoneTuning(ap: ApConfig, cmds: seq<Cmd>) {
    forall k :: 0 <= k < |cmds| ==> NotTuning(ap, cmds[k])
  }

  // --------------------------------------------------------- string facts

  /** A text that is shorter than `ap name `, or does not have its first or
      fourth character, is not addressed. */
  lemma NotAddressed(t: string)
    requires |t| < |ApNameHead| || t[0] != 'a' || t[3] != 'n'
    ensures !AddressesAp(t)
  {
  }

  lemma CancelHead(h: string, u: string, v: string)
    ensures h + u == h + v ==> u == v
  {
    if h + u == h + v {
      assert u == (h + u)[|h|..];
      assert v == (h + v)[|h|..];
    }
  }

  /** In a space-free word followed by a text that opens with a space, the
      first space is where the word ends. */
  lemma SpaceMarksEnd(a: string, x: string, k: nat)
    requires ' ' !in a && |x| > 0 && x[0] == ' '
    requires k <= |a|
    ensures (a + x)[k] == ' ' <==> k == |a|
  {
  }

  /** A text made of a space-free word and a remainder opening with a space
      splits into the two in one way only. */
  lemma SplitAtSpace(a: string, x: string, b: string, y: string)
    requires ' ' !in a && ' ' !in b
    requires |x| > 0 && x[0] == ' ' && |y| > 0 && y[0] == ' '
    ensures a + x == b + y ==> a == b && x == y
  {
    if a + x == b + y {
      var k := if |a| <= |b| then |a| else |b|;
      SpaceMarksEnd(a, x, k);
      SpaceMarksEnd(b, y, k);
      assert |a| == |b|;
      assert a == (a + x)[..|a|];
      assert b == (b + y)[..|b|];
      assert x == (a + x)[|a|..];
      assert y == (b + y)[|b|..];
    }
  }

  // ------------------------------------------------- commands that differ

  lemma RadioTextAddressed(ap: string, radio: string, setting: string, value: string)
    ensures AddressesAp(RadioText(ap, radio, setting, value))
  {
  }

  /** Every tuning command is addressed to an AP by name. */
  lemma TuningAddressed(ap: ApConfig)
    ensures forall j :: 0 <= j < 2 ==> AddressesAp(DualBandPair(ap)[j].text) && AddressesAp(Band24Pair(ap)[j].text)
  {
    RadioTextAddressed(ap.name, "dual-band", "channel", Render(ap.bandFra.channel));
    RadioTextAddressed(ap.name, "dual-band", "txpower", Render(ap.bandFra.txPower));
    RadioTextAddressed(ap.name, "24ghz", "channel", Render(ap.band24.channel));
    RadioTextAddressed(ap.name, "24ghz", "txpower", Render(ap.band24.txPower));
  }

  /** Radio commands for space-free AP names whose radios start with different
      characters differ, even when the AP names differ. */
  lemma RadioTextsApart(a1: string, r1: string, s1: string, v1: string,
                        a2: string, r2: string, s2: string, v2: string)
    requires ' ' !in a1 && ' ' !in a2
    requires |r1| > 0 && |r2| > 0 && r1[0] != r2[0]
    ensures RadioText(a1, r1, s1, v1) != RadioText(a2, r2, s2, v2)
  {
    var x := " dot11 " + r1 + " " + s1 + " " + v1;
    var y := " dot11 " + r2 + " " + s2 + " " + v2;
    assert RadioText(a1, r1, s1, v1) == ApNameHead + (a1 + x);
    assert RadioText(a2, r2, s2, v2) == ApNameHead + (a2 + y);
    assert x[7] == r1[0] && y[7] == r2[0];
    SplitAtSpace(a1, x, a2, y);
    CancelHead(ApNameHead, a1 + x, a2 + y);
  }

  /** The rename command addresses the AP by its factory name and continues
      with ` name `, a tuning command with ` dot11 `. */
  lemma RenameNotRadio(ap: ApConfig, radio: string, setting: string, value: string)
    requires ' ' !in ap.name && ' ' !in ap.mac
    ensures RenameText(ap) != RadioText(ap.name, radio, setting, value)
  {
    var d := ApName.DefaultName(ap.mac);
    ApName.DefaultNameAvoids(ap.mac, ' ');
    var x := " name " + ap.name;
    var y := " dot11 " + radio + " " + setting + " " + value;
    assert RenameText(ap) == ApNameHead + (d + x);
    assert RadioText(ap.name, radio, setting, value) == ApNameHead + (ap.name + y);
    assert x[1] == 'n' && y[1] == 'd';
    SplitAtSpace(d, x, ap.name, y);
    CancelHead(ApNameHead, d + x, ap.name + y);
  }

  /** The static-address command is no radio command for the same AP, for
      any AP name. */
  lemma StaticIpNotRadio(ap: ApConfig, radio: string, setting: string, value: string)
    ensures StaticIpText(ap) != RadioText(ap.name, radio, setting, value)
  {
    var h := ApNameHead + ap.name;
    var x := " static-ip ip-address " + ap.ip + " netmask " + ap.netmask + " gateway " + ap.gateway + [CR];
    var y := " dot11 " + radio + " " + setting + " " + value;
    assert StaticIpText(ap) == h + x;
    assert RadioText(ap.name, radio, setting, value) == h + y;
    assert x[1] == 's' && y[1] == 'd';
    CancelHead(h, x, y);
  }

  lemma RenameNotTuning(ap: ApConfig)
    requires ' ' !in ap.name && ' ' !in ap.mac
    ensures NotTuning(ap, Send(RenameText(ap)))
  {
    RenameNotRadio(ap, "dual-band", "channel", Render(ap.bandFra.channel));
    RenameNotRadio(ap, "dual-band", "txpower", Render(ap.bandFra.txPower));
    RenameNotRadio(ap, "24ghz", "channel", Render(ap.band24.channel));
    RenameNotRadio(ap, "24ghz", "txpower", Render(ap.band24.txPower));
  }

  lemma FiveGhzTextNotTuning(ap: ApConfig, setting: string, value: string)
    requires ' ' !in ap.name
    ensures NotTuning(ap, Send(RadioText(SurveyApName, "5ghz", setting, value)))
  {
    assert ' ' !in SurveyApName;
    RadioTextsApart(SurveyApName, "5ghz", setting, value, ap.name, "dual-band", "channel", Render(ap.bandFra.channel));
    RadioTextsApart(SurveyApName, "5ghz", setting, value, ap.name, "dual-band", "txpower", Render(ap.bandFra.txPower));
    RadioTextsApart(SurveyApName, "5ghz", setting, value, ap.name, "24ghz", "channel", Render(ap.band24.channel));
    RadioTextsApart(SurveyApName, "5ghz", setting, value, ap.name, "24ghz", "txpower", Render(ap.band24.txPower));
  }

  // ------------------------------------------------------------- sections

  lemma UnaddressedNotTuning(ap: ApConfig, cmds: seq<Cmd>)
    requires Every(cmds, Unaddressed)
    ensures NoneTuning(ap, cmds)
  {
    TuningAddressed(ap);
    forall i | 0 <= i < |cmds| ensures NotTuning(ap, cmds[i]) {
      assert Unaddressed(cmds[i]);
    }
  }

  /** The preamble's commands other than the rename are not addressed. */
  lemma PreambleUnaddressed(c: ProvisioningConfig)
    ensures forall i :: 0 <= i < PreambleLen && i != 3 ==> Unaddressed(Preamble(c)[i])
  {
    var u := c.ewc.username;
    var p := c.ewc.password;
    PreamblePlaced(c, Preamble(c));
    NotAddressed("");
    NotAddressed("enable");
    NotAddressed("conf t");
    NotAddressed("line console 0");
    NotAddressed("logging sync");
    NotAddressed(ExitText);
    NotAddressed("netconf-yang");
    NotAddressed("hostname " + c.ewc.name);
    NotAddressed("interface gigabitEthernet 0");
    NotAddressed("ip address " + c.ewc.ip + " 255.255.255.0");
    NotAddressed("username " + u + " privilege 15 password " + p);
    NotAddressed("ap profile default-ap-profile");
    NotAddressed("mgmtuser username " + u + " password 0 " + p + " secret 0 " + p);
  }

  lemma PreambleNotTuning(c: ProvisioningConfig)
    requires ' ' !in c.ap.name && ' ' !in c.ap.mac
    ensures NoneTuning(c.ap, Preamble(c))
  {
    var p := Preamble(c);
    PreambleUnaddressed(c);
    TuningAddressed(c.ap);
    RenameNotTuning(c.ap);
    assert p[3] == Send(RenameText(c.ap));
  }

  lemma WlanBlockUnaddressed(w: Wlan, id: nat)
    ensures Every(WlanBlock(w, id), Unaddressed)
  {
    var create := [Send(WlanCreateText(w, id))];
    var rest := [ Send("no security wpa akm dot1x"),
                  Send("security wpa psk set-key ascii 0 " + w.psk),
                  Send("security wpa akm psk"),
                  Send("no shutdown"),
                  Send(ExitText) ];
    assert WlanCreateText(w, id) == "wlan " + (w.name + " " + Decimal.FromNat(id) + " \"" + w.ssid + "\"");
    NotAddressed(WlanCreateText(w, id));
    NotAddressed("radio dot11a");
    NotAddressed("radio dot11g");
    NotAddressed("no security wpa akm dot1x");
    NotAddressed("security wpa psk set-key ascii 0 " + w.psk);
    NotAddressed("security wpa akm psk");
    NotAddressed("no shutdown");
    NotAddressed(ExitText);
    EveryConcat(create, RadioLine(w.band), Unaddressed);
    EveryConcat(create + RadioLine(w.band), rest, Unaddressed);
  }

  lemma PolicyBlockUnaddressed(w: Wlan)
    ensures Every(PolicyBlock(w), Unaddressed)
  {
    NotAddressed("wireless profile policy " + w.name);
    NotAddressed("no central association");
    NotAddressed("no central dhcp");
    NotAddressed("no central switching");
    NotAddressed("http-tlv-caching");
    NotAddressed("session-timeout 86400");
    NotAddressed("no shutdown");
    NotAddressed(ExitText);
  }

  lemma BindingUnaddressed(w: Wlan)
    ensures Every(Binding(w), Unaddressed)
  {
    NotAddressed("wlan " + w.name + " policy " + w.name);
  }

  lemma EncryptionUnaddressed(ewc: EwcConfig)
    ensures Every(EncryptionSection(ewc), Unaddressed)
  {
    NotAddressed("service password-encryption");
    NotAddressed("password encryption aes");
    NotAddressed("key config-key newpass " + ewc.password);
    NotAddressed("end");
  }

  lemma WlanSectionUnaddressed(ws: seq<Wlan>)
    ensures Every(WlanSection(ws), Unaddressed)
  {
    forall j | 0 <= j < |ws| ensures Every(WlanBlock(ws[j], 1 + j), Unaddressed) {
      WlanBlockUnaddressed(ws[j], 1 + j);
    }
    NumberedEvery(ws, 1, WlanBlock, Unaddressed);
  }

  lemma PolicySectionUnaddressed(ws: seq<Wlan>)
    ensures Every(PolicySection(ws), Unaddressed)
  {
    forall j | 0 <= j < |ws| ensures Every(PolicyBlock(ws[j]), Unaddressed) {
      PolicyBlockUnaddressed(ws[j]);
    }
    EachEvery(ws, PolicyBlock, Unaddressed);
  }

  lemma TagSectionUnaddressed(ws: seq<Wlan>)
    ensures Every(TagSection(ws), Unaddressed)
  {
    forall j | 0 <= j < |ws| ensures Every(Binding(ws[j]), Unaddressed) {
      BindingUnaddressed(ws[j]);
    }
    EachEvery(ws, Binding, Unaddressed);
    var header := [Send("wireless tag policy default-policy-tag")];
    NotAddressed("wireless tag policy default-policy-tag");
    NotAddressed(ExitText);
    EveryConcat(header, Each(ws, Binding), Unaddressed);
    EveryConcat(header + Each(ws, Binding), [Send(ExitText)], Unaddressed);
  }

  /** No command of the WLAN, policy, tag and encryption sections is
      addressed to an AP. */
  lemma BodyUnaddressed(c: ProvisioningConfig)
    ensures Every(Body(c), Unaddressed)
  {
    var ws := c.wlans;
    WlanSectionUnaddressed(ws);
    PolicySectionUnaddressed(ws);
    TagSectionUnaddressed(ws);
    EncryptionUnaddressed(c.ewc);
    EveryConcat4(WlanSection(ws), PolicySection(ws), TagSection(ws), EncryptionSection(c.ewc), Unaddressed);
  }

  lemma FiveGhzNotTuning(ap: ApConfig)
    requires ' ' !in ap.name
    ensures NoneTuning(ap, FiveGhzPair(ap))
  {
    FiveGhzTextNotTuning(ap, "channel", Render(ap.band5.channel));
    FiveGhzTextNotTuning(ap, "txpower", Render(ap.band5.txPower));
  }

  /** The static-address command names the AP as a tuning command does but
      continues with ` static-ip ` where a tuning command has ` dot11 `, and
      `write memory` is not addressed. */
  lemma TailNotTuning(ap: ApConfig)
    ensures NoneTuning(ap, TailSection(ap))
  {
    StaticIpNotRadio(ap, "dual-band", "channel", Render(ap.bandFra.channel));
    StaticIpNotRadio(ap, "dual-band", "txpower", Render(ap.bandFra.txPower));
    StaticIpNotRadio(ap, "24ghz", "channel", Render(ap.band24.channel));
    StaticIpNotRadio(ap, "24ghz", "txpower", Render(ap.band24.txPower));
    NotAddressed(SaveText);
    TuningAddressed(ap);
  }

  // ------------------------------------------------------------- the script

  lemma BodyLength(c: ProvisioningConfig)
    ensures PreambleLen + |Body(c)| == RadioStart(c)
  {
    PolicySectionLength(c.wlans);
    TagSectionLength(c.wlans);
  }

  /** A part placed in `s` whose commands are not tuning commands
      contributes none. */
  lemma PartNotTuning(ap: ApConfig, s: seq<Cmd>, part: seq<Cmd>, at: nat)
    requires at + |part| <= |s| && s[at .. at + |part|] == part
    requires NoneTuning(ap, part)
    ensures forall i :: at <= i < at + |part| ==> NotTuning(ap, s[i])
  {
    forall i | at <= i < at + |part| ensures NotTuning(ap, s[i]) {
      SliceAt(s, part, at, i - at);
      assert NotTuning(ap, part[i - at]);
    }
  }

  /** Cut a sequence into a first part, a second part, a two-command gap, a
      third part and a last part: when no part holds a tuning command, only
      the gap can. */
  lemma OutsideGap(ap: ApConfig, s: seq<Cmd>, p: seq<Cmd>, b: seq<Cmd>, f: seq<Cmd>, t: seq<Cmd>)
    requires |p| + |b| + 2 + |f| + |t| == |s|
    requires s[0 .. |p|] == p
    requires s[|p| .. |p| + |b|] == b
    requires s[|p| + |b| + 2 .. |p| + |b| + 2 + |f|] == f
    requires s[|s| - |t| .. |s|] == t
    requires NoneTuning(ap, p) && NoneTuning(ap, b) && NoneTuning(ap, f) && NoneTuning(ap, t)
    ensures forall i :: 0 <= i < |s| && !(|p| + |b| <= i < |p| + |b| + 2) ==> NotTuning(ap, s[i])
  {
    PartNotTuning(ap, s, p, 0);
    PartNotTuning(ap, s, b, |p|);
    PartNotTuning(ap, s, f, |p| + |b| + 2);
    PartNotTuning(ap, s, t, |s| - |t|);
  }

  /** The middle of the script is the body, the tuning pair and the 5 GHz pair. */
  lemma MiddleSlices(c: ProvisioningConfig, s: seq<Cmd>)
    requires PreambleLen + |Middle(c)| <= |s|
    requires s[PreambleLen .. PreambleLen + |Middle(c)|] == Middle(c)
    ensures |Middle(c)| == |Body(c)| + 2 + |FiveGhzPair(c.ap)|
    ensures s[PreambleLen .. PreambleLen + |Body(c)|] == Body(c)
    ensures s[PreambleLen + |Body(c)| + 2 .. PreambleLen + |Body(c)| + 2 + |FiveGhzPair(c.ap)|] == FiveGhzPair(c.ap)
  {
    var b := Body(c);
    var m := Middle(c);
    Halves(b, RadioSection(c.ap));
    RadioSectionShape(c.ap);
    SlicePrefix(s, m, PreambleLen, |b|);
    SliceOfSlice(s, m, PreambleLen, |b| + 2, |b| + 4);
    assert m[|b| + 2 .. |b| + 4] == FiveGhzPair(c.ap);
  }

  /** In a sequence laid out as preamble, body, radio section and tail, only
      the two commands after the body can be tuning commands. */
  lemma OutsideSlotPlaced(c: ProvisioningConfig, s: seq<Cmd>)
    requires ' ' !in c.ap.name && ' ' !in c.ap.mac
    requires PreambleLen + |Middle(c)| + TailLen == |s|
    requires s[0 .. PreambleLen] == Preamble(c)
    requires s[PreambleLen .. PreambleLen + |Middle(c)|] == Middle(c)
    requires s[|s| - TailLen .. |s|] == TailSection(c.ap)
    ensures forall i :: 0 <= i < |s| && !(PreambleLen + |Body(c)| <= i < PreambleLen + |Body(c)| + 2) ==>
              NotTuning(c.ap, s[i])
  {
    MiddleSlices(c, s);
    PreambleNotTuning(c);
    BodyUnaddressed(c);
    UnaddressedNotTuning(c.ap, Body(c));
    FiveGhzNotTuning(c.ap);
    TailNotTuning(c.ap);
    OutsideGap(c.ap, s, Preamble(c), Body(c), FiveGhzPair(c.ap), TailSection(c.ap));
  }

  /** For an AP name and a MAC without spaces, no command of the script
      outside the tuning slot is a dual-band or 2.4 GHz tuning command. */
  lemma TuningOnlyInSlot(c: ProvisioningConfig)
    requires ' ' !in c.ap.name && ' ' !in c.ap.mac
    ensures var s := Script(c);
            var at := RadioStart(c);
            && at + 2 <= |s|
            && forall i :: 0 <= i < |s| && !(at <= i < at + 2) ==>
                 s[i].text !in Texts(DualBandPair(c.ap)) && s[i].text !in Texts(Band24Pair(c.ap))
  {
    PreambleAt(c);
    MiddleAt(c);
    TailSectionAt(c);
    BodyLength(c);
    OutsideSlotPlaced(c, Script(c));
  }

  /** No dual-band text is a 2.4 GHz text, in either position. */
  lemma PairsDisjoint(ap: ApConfig)
    ensures forall j :: 0 <= j < 2 ==> DualBandPair(ap)[j].text !in Texts(Band24Pair(ap))
    ensures forall j :: 0 <= j < 2 ==> Band24Pair(ap)[j].text !in Texts(DualBandPair(ap))
  {
    var d := "dual-band";
    var g := "24ghz";
    assert d[0] != g[0];
    RadioTextsDiffer(ap.name, d, "channel", Render(ap.bandFra.channel), g, "channel", Render(ap.band24.channel));
    RadioTextsDiffer(ap.name, d, "channel", Render(ap.bandFra.channel), g, "txpower", Render(ap.band24.txPower));
    RadioTextsDiffer(ap.name, d, "txpower", Render(ap.bandFra.txPower), g, "channel", Render(ap.band24.channel));
    RadioTextsDiffer(ap.name, d, "txpower", Render(ap.bandFra.txPower), g, "txpower", Render(ap.band24.txPower));
  }

  lemma RadioOmittedPlaced(c: ProvisioningConfig, s: seq<Cmd>)
    requires RadioStart(c) + 2 <= |s|
    requires s[RadioStart(c) .. RadioStart(c) + 2] == TuningPair(c.ap)
    requires forall i :: 0 <= i < |s| && !(RadioStart(c) <= i < RadioStart(c) + 2) ==>
               s[i].text !in Texts(DualBandPair(c.ap)) && s[i].text !in Texts(Band24Pair(c.ap))
    ensures forall i :: 0 <= i < |s| ==>
              (s[i].text in Texts(TuningPair(c.ap)) <==> RadioStart(c) <= i < RadioStart(c) + 2)
    ensures UsesDualBand(c.ap) ==> forall i :: 0 <= i < |s| ==> s[i].text !in Texts(Band24Pair(c.ap))
    ensures !UsesDualBand(c.ap) ==> forall i :: 0 <= i < |s| ==> s[i].text !in Texts(DualBandPair(c.ap))
  {
    var at := RadioStart(c);
    PairsDisjoint(c.ap);
    forall i | at <= i < at + 2 ensures s[i] == TuningPair(c.ap)[i - at] {
      SliceAt(s, TuningPair(c.ap), at, i - at);
    }
  }

  /** With an AP name and a MAC without spaces, the script sends exactly the
      tuning pair that `fra_ap` selects, in its slot and nowhere else, and no
      command of the other pair anywhere. */
  lemma RadioOmitted(c: ProvisioningConfig)
    requires ' ' !in c.ap.name && ' ' !in c.ap.mac
    ensures var s := Script(c);
            var at := RadioStart(c);
            && at + 2 <= |s|
            && (forall i :: 0 <= i < |s| ==> (s[i].text in Texts(TuningPair(c.ap)) <==> at <= i < at + 2))
            && (UsesDualBand(c.ap) ==> forall i :: 0 <= i < |s| ==> s[i].text !in Texts(Band24Pair(c.ap)))
            && (!UsesDualBand(c.ap) ==> forall i :: 0 <= i < |s| ==> s[i].text !in Texts(DualBandPair(c.ap)))
  {
    TuningOnlyInSlot(c);
    RadioSelection(c);
    RadioOmittedPlaced(c, Script(c));
  }

  /** An AP name with spaces in it, "Survey-AP dot11 5ghz channel Y", makes
      the 5 GHz channel command for the channel "Y dot11 24ghz channel V"
      spell the 2.4 GHz channel command for channel "V". */
  lemma CollidingTexts()
    ensures RadioText(SurveyApName, "5ghz", "channel", "Y" + " dot11 " + "24ghz" + " " + "channel" + " " + "V")
         == RadioText(SurveyApName + " dot11 " + "5ghz" + " " + "channel" + " " + "Y", "24ghz", "channel", "V")
  {
  }

  /** A name and settings with which the first 5 GHz command is the 2.4 GHz
      channel command. */
  predicate SpacedSettings(ap: ApConfig) {
    && ap.name == SurveyApName + " dot11 " + "5ghz" + " " + "channel" + " " + "Y"
    && ap.band5.channel == Text("Y" + " dot11 " + "24ghz" + " " + "channel" + " " + "V")
    && ap.band24.channel == Text("V")
  }

  lemma CollisionPlaced(c: ProvisioningConfig, s: seq<Cmd>)
    requires SpacedSettings(c.ap)
    requires RadioStart(c) + 4 <= |s|
    requires s[RadioStart(c) + 2 .. RadioStart(c) + 4] == FiveGhzPair(c.ap)
    ensures s[RadioStart(c) + 2] == Band24Pair(c.ap)[0]
  {
    var v5 := "Y" + " dot11 " + "24ghz" + " " + "channel" + " " + "V";
    assert Render(c.ap.band5.channel) == v5;
    assert Render(c.ap.band24.channel) == "V";
    assert FiveGhzPair(c.ap)[0] == Send(RadioText(SurveyApName, "5ghz", "channel", v5));
    assert Band24Pair(c.ap)[0] == Send(RadioText(c.ap.name, "24ghz", "channel", "V"));
    CollidingTexts();
    SliceAt(s, FiveGhzPair(c.ap), RadioStart(c) + 2, 0);
  }

  /** Without the space-free requirement the omission fails: with these
      settings and `fra_ap` selecting the dual-band pair, the script still
      sends the 2.4 GHz channel command, right after the dual-band pair. */
  lemma SpacedNameCollision(c: ProvisioningConfig)
    requires SpacedSettings(c.ap) && UsesDualBand(c.ap)
    ensures var s := Script(c);
            && RadioStart(c) + 2 < |s|
            && s[RadioStart(c) .. RadioStart(c) + 2] == DualBandPair(c.ap)
            && s[RadioStart(c) + 2] == Band24Pair(c.ap)[0]
  {
    RadioSelection(c);
    FiveGhzInScript(c);
    CollisionPlaced(c, Script(c));
  }
}
